=== FILE: README.md ===
# Flix socket core in Dafny

This project models the socket-event state machine of the Flix chat
server (`server.js`). The server keeps one snapshot of users, friendships,
groups and messages. Each handler reads the snapshot, checks the caller's
request against the friendship and group data, then does one of two
things. It refuses with a single `error` event and changes nothing, or it
rewrites one collection and emits its result events to the caller, to
users' rooms or to a group's room.

Every handler is a pure function from the snapshot, the caller's id, the
payload and the server's nondeterministic inputs to a `Step`. A `Step` is
the new snapshot plus the sequence of actions: emitted events and
room subscriptions. The nondeterministic inputs are the uuid (`freshId`),
the clock reading (`now`, a `nat`) and the set of connected users
(`online`).

Modules:

- `Base`: the JavaScript array operations the server relies on: `find`/`findIndex`, `filter`, `splice(i, 1)`, and de-duplication through a `Set`.
- `Model`: the entities, the events and actions, the lookups, and the snapshot invariant. The invariant has four parts:
  - at most one friendship edge per unordered pair;
  - no self edge;
  - every group well formed;
  - unique message ids.
- `Friendships`: the handlers `friend_request`, `accept_request`, `decline_request`, `remove_friend` and `block_user`.
- `Groups`: `getMyGroups`, `create_group` and `add_members_to_group`.
- `Messaging`: `send_message` (with its blocking check for direct messages) and `delete_message`.
- `History`: `get_history`. A group chat comes back in storage order; a direct chat comes back under a stable sort by timestamp.
- `Projection`: the `init_data` payload of `sendInitialData`, the subscriptions made on connection, and the `/api/search_users` filter.
- `Router`: dispatches each client event to its handler, and proves that every handler, and any run of handlers, keeps the invariant.

Where the code and its description disagree, the model follows the code:

- The username lookup of `friend_request` is exact and case-sensitive.
- `block_user` clears a block whoever set it, so the blocked user can lift it too.
- `create_group` does not check the group name.
- `get_history` does not check that the caller belongs to the chat.
- `send_message` does not require the two users to be friends; only a block stops a direct message.
- The direct-message history filter does not look at `isGroup`.
- `delete_message` notifies the members of the group named by the client's `chatId`, not of the group the message was sent to. It notifies nobody else when that group does not exist.
- The blocking check reads the first edge between the pair, whatever its status. Under the one-edge-per-pair invariant this is the only edge.
- `friend_request` has a "create a new request" fall-through after an existing edge is found. That path is unreachable: the edge found joins the pair, so it is accepted, sent by the caller, or sent by the target. The model has no such branch.

## Model

| member | source | states |
|---|---|---|
| Friendships.FriendRequest | server.js:360-403 | an unknown username is refused; a refusal changes nothing; otherwise only the friendship list changes, either by one appended pending edge from the caller to the named user or by accepting in place a pending edge addressed to the caller |
| Friendships.FriendRequestOutcome | server.js:360-403 | with one edge per pair, a request to an existing user is refused exactly when the user is the caller, already a friend, or already asked by the caller; the target's own pending request is accepted in place and both users are told to refresh; with no edge between them, exactly one pending edge is appended and the target is told to refresh |
| Friendships.MutualRequestAccepts | server.js:379-388 | when the target already asked the caller, the edge count is unchanged and the pair's only edge is now accepted |
| Friendships.FriendRequestKeepsPairs | server.js:360-403 | `friend_request` keeps at most one edge per unordered pair and no self edge |
| Friendships.AcceptRequest | server.js:405-420 | refused exactly when no pending request with that id is addressed to the caller; otherwise exactly that edge becomes accepted, every other edge unchanged, and both ends are told to refresh |
| Friendships.DeclineRequest | server.js:422-437 | refused exactly when no pending request with that id is addressed to the caller; otherwise exactly that edge is removed (multiset of edges minus that one, order kept) and the sender is told to refresh |
| Friendships.RemoveFriend | server.js:439-457 | refused exactly when no accepted edge joins the pair; otherwise exactly one such edge is removed and both ends are told to refresh |
| Friendships.RemoveFriendLeavesNoEdge | server.js:439-457 | with one edge per pair, after a successful removal no edge joins the two users |
| Friendships.Toggle | server.js:471-479 | the block toggle changes only the blocker: a set blocker is cleared, an absent one becomes the caller |
| Friendships.BlockUser | server.js:460-484 | refused exactly when no edge of any status joins the pair; otherwise only that edge's blocker is toggled, and both users are told to refresh |
| Friendships.BlockTwiceRestores | server.js:460-484 | blocking and toggling again restores the snapshot, when the caller or nobody set the earlier block |
| Friendships.BlockedUserCanUnblock | server.js:473-475 | the user who was blocked can lift the block with their own `block_user` call |
| Friendships.AcceptKeepsPairs | server.js:405-420 | `accept_request` keeps at most one edge per pair and no self edge |
| Friendships.DeclineKeepsPairs | server.js:422-437 | `decline_request` keeps at most one edge per pair and no self edge |
| Friendships.RemoveFriendKeepsPairs | server.js:439-457 | `remove_friend` keeps at most one edge per pair and no self edge |
| Friendships.BlockKeepsPairs | server.js:460-484 | `block_user` keeps at most one edge per pair and no self edge |
| Base.DedupFirstOccurrence | server.js:489 | the de-duplicated ids come in the order of their first occurrences |
| Groups.MyGroups | server.js:199-201 | a group is listed exactly when the user is one of its members, as often as it is stored |
| Groups.NotifyMembers | server.js:514-519 | every member gets a refresh and every refresh goes to a member's room; a user joins the group's room exactly when they are a member, among the joining ids, and online |
| Groups.ValidateMembers | server.js:486-500 | too few members exactly when no id other than the caller's is given; an unknown member exactly when the caller or a given id is not a user; otherwise at least two distinct members whose ids are the given ids plus the caller, de-duplicated in order of first mention, each with the user's name |
| Groups.CreateGroup | server.js:486-522 | refused exactly when nobody but the caller is named or some id (the caller's included) is not a user; otherwise exactly one group is appended with the fresh id, the caller as creator and sole admin, the given avatar or, when none is given, the one derived from the name's first two characters, and as members the named users plus the caller, each once, in order of first mention |
| Groups.CreateGroupMemberOrder | server.js:489-496 | on valid input, a member listed before another was mentioned first among the named ids followed by the caller |
| Groups.DedupSize | server.js:489-491 | the de-duplicated list has fewer than two entries exactly when every given id is the caller's |
| Groups.AllNamedUsers | server.js:493-500 | every de-duplicated id names a user exactly when the caller and every given id do |
| Groups.ResolvedIds | server.js:493-496 | resolving ids that all name users keeps every id, in order |
| Groups.ResolvedMembers | server.js:493-496 | resolving distinct user ids gives one distinct member per id, with exactly those ids |
| Groups.CreateGroupNotifies | server.js:514-521 | when the caller and every named id are users and someone else is named, the group is created, its members all get a refresh, exactly its online members join its room, and the caller gets the success text |
| Groups.CreateGroupNeedsTwo | server.js:489-491 | a group naming nobody but the caller is refused with "Group needs at least two members (including you)." and nothing changes |
| Groups.CreateGroupWithOne | server.js:486-522 | a group naming one other existing user is created with both users as members and the caller as sole admin |
| Groups.AddNew | server.js:535-544 | the add loop only appends: the old members stay as a prefix, followed by one member per added id |
| Groups.AddNewAddsOnlyNewUsers | server.js:535-544 | every added id was listed, names a user, and was not a member |
| Groups.AddNewNames | server.js:535-544 | each added member record carries the user's current name |
| Groups.AddNewCovers | server.js:535-544 | after the loop, every listed user and every earlier member is a member |
| Groups.AddNewKeepsDistinct | server.js:535-544 | the loop never lists a user twice, even when an id is listed twice |
| Groups.AddMembers | server.js:524-558 | an unknown group is refused; a refusal changes nothing; a success rewrites only that group's member list, by appending to it, and only for an admin or the creator |
| Groups.AddMembersOutcome | server.js:531-558 | for an admin or the creator: refused exactly when no listed user is outside the group; otherwise the newcomers are listed users who were not members, every listed user ends up a member, the list stays duplicate-free, every member is told to refresh, and only online newcomers join the room |
| Groups.AddMembersJoinsNewcomers | server.js:535-551 | for an admin or the creator: every listed user who was not a member and is online joins the group's room |
| Groups.AddMembersNeedsAdmin | server.js:531-533 | a caller who is neither admin nor creator gets "Only group admins can add members." and nothing changes |
| Groups.CreateGroupKeepsGroups | server.js:486-522 | `create_group` keeps every group well formed |
| Groups.AddMembersKeepsGroups | server.js:524-558 | `add_members_to_group` keeps every group well formed |
| Messaging.CanMessage | server.js:293-307 | the block check reports "blocked by self" only when an edge of the pair has the sender as blocker, "blocked by peer" only when it has the recipient, and allows when no edge of the pair has a blocker |
| Messaging.BlockStopsBothWays | server.js:293-307 | with one edge per pair, a block set by one side stops direct messages both ways, and each side gets the right reason |
| Messaging.UnblockedAllowsBothWays | server.js:293-307 | without a blocker on the pair's edge, direct messages go both ways |
| Messaging.ComposeMessage | server.js:283-291 | the stored message has the fresh id, the caller as sender, the clock reading, the type defaulting to "text", and a sender name only for a group message |
| Messaging.SendMessage | server.js:282-328 | refused exactly for a direct message to or from a blocker, with the matching error text and no change; otherwise exactly one message is appended; a group message goes to the group's room only, a direct message goes to the recipient's room and back to the caller |
| Messaging.SendAddsOnlyFresh | server.js:282-317 | after sending, every stored message was stored before or carries the fresh uuid |
| Messaging.SendKeepsIdsUnique | server.js:282-317 | a sent message with a fresh uuid keeps message ids unique |
| Messaging.DeleteRecipients | server.js:337-344 | the caller is never among the notified ids; for a direct message they are exactly the two ends other than the caller; for a group, exactly the other members of the named group, or nobody when there is no such group |
| Messaging.DeleteNotices | server.js:349-352 | exactly the caller's room first, then one notice to each recipient in order, then the success text to the caller |
| Messaging.DeleteMessage | server.js:330-356 | refused exactly when the caller sent no message with that id; otherwise only the first such message is removed, every other message kept in order; the caller's room is told first and the caller gets the success text last, and no other notice goes to the caller's room |
| Messaging.DeleteNotifiesOnly | server.js:337-352 | a deletion tells nobody but the caller's room and the recipients, and tells them only of this deletion |
| Messaging.DeleteNotifies | server.js:337-350 | a deletion tells the addressee of a direct message, or each other member of the named group |
| Messaging.DeleteTwiceFails | server.js:330-356 | with unique ids, no message with the deleted id is left, and deleting it again is refused |
| Messaging.DeleteAddsNothing | server.js:330-347 | deleting never adds a message |
| Messaging.DeleteKeepsIdsUnique | server.js:331-347 | deletion keeps message ids unique |
| History.InsertAddsOne | server.js:276 | one insertion step of the sort adds exactly the inserted message to the multiset |
| History.InsertSorted | server.js:276 | inserting into a sorted conversation keeps it sorted by timestamp |
| History.SortByTime | server.js:276 | the sort is a permutation of its input in non-decreasing timestamp order |
| History.SortStable | server.js:276 | the sort is stable: messages with equal timestamps keep their storage order |
| History.SortAppendLatest | server.js:276 | a message stamped no earlier than all others sorts last |
| History.HistoryOf | server.js:267-277 | a message is returned exactly when it is stored and belongs to the chat (addressed to the group with the group flag, or between the caller and the peer), as often as it is stored; direct chats come back sorted by timestamp |
| History.GroupHistoryConcat | server.js:270-271 | a group's history over a store split in two is the history of the first part followed by that of the second, so group history keeps storage order |
| History.GroupHistoryOne | server.js:271 | a single stored message is in a group's history exactly when it is a group message addressed to that group |
| History.HistoryKeepsTies | server.js:273-276 | within a direct chat, messages stamped alike appear in their storage order |
| History.GetHistory | server.js:267-280 | one `chat_history` reply to the caller with the requested chat id and flag, carrying each of the chat's stored messages as often as it is stored and nothing else, sorted by timestamp for a direct chat; the snapshot is unchanged |
| History.SentDirectMessageShows | server.js:282-328 | a delivered direct message appears in the history of both ends |
| History.SentGroupMessageLast | server.js:270-271 | a message sent to a group is appended to that group's history |
| History.SentDirectMessageLast | server.js:273-276 | with a clock that does not run backwards, a delivered direct message is last in both ends' history |
| History.DeletedMessageGone | server.js:330-347 | with unique ids, a deleted message appears in no later history |
| Projection.Requests | server.js:207-213 | one listing per pending edge addressed to the user, in edge order, each with the edge id, the sender, and the sender's name when the sender is a user |
| Projection.AsFriend | server.js:222-231 | a friend is shown online exactly when connected, and blocked exactly when either end set the block |
| Projection.Friends | server.js:215-232 | one listing per accepted edge of the user whose other end names a user, in edge order, each built from that edge and that user |
| Projection.FriendsAreFaithful | server.js:215-232 | each listed friend is a user other than the caller, online exactly when connected, and blocked exactly when either end blocks |
| Projection.InitialData | server.js:203-237 | `init_data` carries the caller's own record when it exists, one request per pending edge addressed to the caller, one friend per listed accepted edge, and each of the caller's groups as often as it is stored |
| Projection.GroupJoins | server.js:251 | the socket joins the room of each group in the list, and no other room |
| Projection.FriendRefreshes | server.js:256-261 | every accepted friend, and nobody else, is told to refresh |
| Projection.ConnectActions | server.js:247-260 | the socket joins the user's own room first and exactly the rooms of the user's groups, the greeting goes to the caller, every accepted friend is told to refresh, and every other emit is a refresh to an accepted friend |
| Projection.Connect | server.js:247-261 | a connection puts the user online, joins the user's own room and exactly the rooms of the user's groups, sends `init_data` that counts the user as online, and tells every accepted friend, and nobody else, to refresh |
| Projection.Lower | server.js:178-183 | lower-casing keeps the length and maps each character |
| Projection.Utf16Length | server.js:174 | a string's `length` is its number of characters plus its number of characters outside the Basic Multilingual Plane |
| Projection.SearchUsers | server.js:172-193 | a query under two UTF-16 code units gives nothing; otherwise the first ten users in storage order, or all of them when fewer match, each one other than the caller whose name starts with the query regardless of case |
| Projection.SearchFindsAllWhenFew | server.js:180-190 | when at most ten users match a query of at least two UTF-16 code units, all of them are offered |
| Projection.RequestShowsForRecipient | server.js:391-402 | a new friend request shows in the recipient's `init_data` |
| Projection.AcceptedShowsFriend | server.js:405-420 | after `accept_request`, the caller's `init_data` lists the requester as a friend |
| Projection.CreatedGroupShowsForMembers | server.js:486-522 | when the caller and every named id are users and someone else is named, every member's `init_data` after `create_group` lists the new group |
| Router.Handle | server.js:263-558 | users never change; a refusal changes nothing; each handler touches only its own collection; `get_history` and `refresh_data` leave the snapshot unchanged and answer only the caller |
| Router.HandleMessagesFromBeforeOrFresh | server.js:282-356 | every stored message after a handler was stored before or carries the handler's fresh uuid |
| Router.FriendshipIntentKeeps | server.js:360-484 | each friendship handler keeps the snapshot invariant |
| Router.OtherIntentKeeps | server.js:263-356 | the history, refresh, message and group handlers keep the snapshot invariant, given a uuid no stored message carries |
| Router.HandleKeepsInvariant | server.js:263-558 | every handler keeps the snapshot invariant, given a uuid no stored message carries |
| Router.RunKeepsInvariant | server.js:263-558 | any sequence of handled events keeps the invariant, when the uuids drawn are distinct from each other and from stored message ids |

## Left out

- HTTP plumbing is not modelled: Express routes, cookies, and the `requireAuth` redirect. The user id is a parameter of each handler, because cookie parsing is transport.
- The snapshot is an explicit value, not modelled as file I/O through `getDB`/`saveDB`. The last-writer-wins race between concurrent handlers is not modelled.
- Socket transport is not modelled: `onlineUsers` is a set of user ids, room delivery is the returned action list, and `io.sockets.sockets.get(...)?.join(...)` is a `Join` action.
- `uuidv4()` and `new Date().toISOString()` are parameters (`freshId`, `now`), so timestamps are `nat` rather than ISO strings compared as dates.
- The `disconnect` handler is not modelled. Its removal of the user from `onlineUsers` (server.js:562) is left to the `online` parameter that every handler and view takes. Its `refresh_data` notifications (server.js:563-568) read the `db` loaded when the socket connected, not the current snapshot.
- Register, login, logout, `/api/me`, `/api/upload` and `/api/update_avatar` are not modelled: they are outside the socket core.
- The password field is not modelled, because `User` has no password. Note that `sendInitialData` sends the stored user record as `currentUser` without removing its password, unlike the other endpoints.
- A missing `type`, `avatar` or `isGroup` (JavaScript falsy) is modelled as the empty string or `false`.
- Projection.Lower: lower-cases ASCII letters only, because Unicode case mapping is not modelled.
- Projection.SearchUsers: the same ASCII-only lower-casing limits its contract.
- Groups.DefaultAvatar: takes the first two characters of the name, while `substring(0, 2)` (server.js:505) takes two UTF-16 code units; for a name starting outside the Basic Multilingual Plane the source keeps half a surrogate pair, which a Dafny string cannot hold.
- User ids are assumed non-empty. The source tests the session id and `blockerId` for truthiness (server.js:245, 300, 471-473), and the model reads `blocker` as an `Option<Id>` and accepts any `me`. The two agree because ids come from `uuidv4()` and an empty session id is disconnected before any handler runs.
- Malformed payloads are not modelled, because payload fields are typed: a non-array `members` or a missing `content` cannot occur.
- The browser client files are not part of this model.

=== FILE: base.dfy ===
/** Sequence helpers shared by the model: the JavaScript array operations the
    server relies on (`find`/`findIndex`, `filter`, `splice`, and the
    de-duplication done by `Array.from(new Set(...))`). */
module Base {

  datatype Option<+T> = None | Some(value: T)

  /** `Array.prototype.findIndex`: the first position whose element satisfies
      `p`; `None` stands for the `-1` the source compares against. */
  function FindIndex<T>(s: seq<T>, p: T -> bool): (r: Option<nat>)
    ensures r.Some? ==> r.value < |s| && p(s[r.value])
    ensures r.Some? ==> forall j :: 0 <= j < r.value ==> !p(s[j])
    ensures r.None? <==> forall j :: 0 <= j < |s| ==> !p(s[j])
  {
    if |s| == 0 then None
    else if p(s[0]) then Some(0)
    else match FindIndex(s[1..], p)
      case None => None
      case Some(i) => Some(i + 1)
  }

  /** Updating a position at or after the one `FindIndex` found, with a value
      that still satisfies the predicate there, does not move the result. */
  lemma FindIndexAfterUpdate<T>(s: seq<T>, p: T -> bool, i: nat, x: T)
    requires FindIndex(s, p) == Some(i)
    requires p(x)
    ensures FindIndex(s[i := x], p) == Some(i)
  {
    var t := s[i := x];
    var r := FindIndex(t, p);
    assert p(t[i]);
    assert forall j :: 0 <= j < i ==> t[j] == s[j];
  }

  /** `Array.prototype.filter`: keeps the elements satisfying `p`, in order. */
  function Filter<T(!new)>(s: seq<T>, p: T -> bool): (r: seq<T>)
    ensures forall x :: x in r <==> x in s && p(x)
    ensures forall k :: 0 <= k < |r| ==> p(r[k])
    ensures |r| <= |s|
  {
    if |s| == 0 then []
    else (if p(s[0]) then [s[0]] else []) + Filter(s[1..], p)
  }

  /** Filtering distributes over concatenation, so the result lists the kept
      elements in their storage order. */
  lemma {:induction false} FilterConcat<T(!new)>(a: seq<T>, b: seq<T>, p: T -> bool)
    ensures Filter(a + b, p) == Filter(a, p) + Filter(b, p)
  {
    if |a| == 0 {
      assert a + b == b;
    } else {
      assert (a + b)[1..] == a[1..] + b;
      FilterConcat(a[1..], b, p);
    }
  }

  /** Filtering a sequence with a given head. */
  lemma FilterCons<T(!new)>(x: T, s: seq<T>, p: T -> bool)
    ensures Filter([x] + s, p) == (if p(x) then [x] else []) + Filter(s, p)
  {
    assert ([x] + s)[1..] == s;
  }

  /** Appending one element appends it to the filtered result when it is
      kept. */
  lemma FilterSnoc<T(!new)>(s: seq<T>, x: T, p: T -> bool)
    ensures Filter(s + [x], p) == Filter(s, p) + (if p(x) then [x] else [])
  {
    FilterConcat(s, [x], p);
    assert [x][1..] == [];
  }

  /** Filtering keeps every kept element as often as it occurs. */
  lemma {:induction false} FilterCount<T(!new)>(s: seq<T>, p: T -> bool, x: T)
    ensures multiset(Filter(s, p))[x] == if p(x) then multiset(s)[x] else 0
  {
    if |s| > 0 {
      assert s == [s[0]] + s[1..];
      FilterCount(s[1..], p, x);
    }
  }

  /** `Array.prototype.splice(i, 1)`: removes exactly the element at `i`. */
  function RemoveAt<T>(s: seq<T>, i: nat): (r: seq<T>)
    requires i < |s|
    ensures |r| == |s| - 1
    ensures forall j :: 0 <= j < i ==> r[j] == s[j]
    ensures forall j :: i <= j < |r| ==> r[j] == s[j + 1]
    ensures multiset(r) + multiset{s[i]} == multiset(s)
  {
    assert s == s[..i] + [s[i]] + s[i + 1..];
    s[..i] + s[i + 1..]
  }

  /** No element occurs twice. */
  predicate NoDup<T(==)>(s: seq<T>) {
    forall i, j :: 0 <= i < j < |s| ==> s[i] != s[j]
  }

  /** `Array.prototype.indexOf`: the position of the first occurrence of `x`. */
  function FirstIndexOf<T(==)>(s: seq<T>, x: T): (i: nat)
    requires x in s
    ensures i < |s| && s[i] == x
    ensures forall j :: 0 <= j < i ==> s[j] != x
  {
    if s[0] == x then 0 else 1 + FirstIndexOf(s[1..], x)
  }

  /** Appending an element moves no first occurrence, and a new element
      first occurs at the end. */
  lemma FirstIndexOfSnoc<T>(s: seq<T>, y: T)
    ensures forall x :: x in s ==> FirstIndexOf(s + [y], x) == FirstIndexOf(s, x)
    ensures y !in s ==> FirstIndexOf(s + [y], y) == |s|
  {
    forall x | x in s ensures FirstIndexOf(s + [y], x) == FirstIndexOf(s, x) {
      var i, i' := FirstIndexOf(s, x), FirstIndexOf(s + [y], x);
      assert (s + [y])[i] == x;
    }
  }

  /** `Array.from(new Set(s))`: the distinct elements of `s`, each once. */
  function Dedup<T(==,!new)>(s: seq<T>): (r: seq<T>)
    ensures NoDup(r)
    ensures forall x :: x in r <==> x in s
    ensures |r| <= |s|
  {
    if |s| == 0 then []
    else
      var rest := Dedup(s[..|s| - 1]);
      assert s == s[..|s| - 1] + [s[|s| - 1]];
      if s[|s| - 1] in rest then rest else rest + [s[|s| - 1]]
  }

  /** `Dedup` lists the elements in the order of their first occurrences. */
  lemma {:induction false} DedupFirstOccurrence<T(!new)>(s: seq<T>)
    ensures forall i, j :: 0 <= i < j < |Dedup(s)| ==> FirstIndexOf(s, Dedup(s)[i]) < FirstIndexOf(s, Dedup(s)[j])
  {
    if |s| > 0 {
      var p := s[..|s| - 1];
      var y := s[|s| - 1];
      var rest := Dedup(p);
      assert s == p + [y];
      assert Dedup(s) == if y in rest then rest else rest + [y];
      DedupFirstOccurrence(p);
      FirstIndexOfSnoc(p, y);
      var r := Dedup(s);
      forall i, j | 0 <= i < j < |r| ensures FirstIndexOf(s, r[i]) < FirstIndexOf(s, r[j]) {
        assert r[i] == rest[i] && rest[i] in p;
        if j < |rest| {
          assert r[j] == rest[j] && rest[j] in p;
        } else {
          assert r[j] == y && y !in p;
          assert FirstIndexOf(p, rest[i]) < |p|;
        }
      }
    }
  }
}

=== FILE: friendships.dfy ===
/** The friendship handlers of the socket server: `friend_request`,
    `accept_request`, `decline_request`, `remove_friend` and `block_user`.
    Each one validates against the snapshot, then either refuses with one
    `error` event and no change, or rewrites the friendship list. */
module Friendships {
  import opened Base
  import opened Model

  const ErrUserNotFound := "User not found."
  const ErrSelfRequest := "Cannot send a friend request to yourself."
  const ErrAlreadyFriends := "You are already friends."
  const ErrAlreadySent := "Request already sent."
  const ErrNoRequest := "Request not found or already processed."
  const ErrNoFriendship := "Friendship not found."
  const ErrNoEdge := "You can only block current friends."

  /** Only the friendship list may change. */
  predicate OnlyFriendships(db: Snapshot, db': Snapshot) {
    db'.users == db.users && db'.messages == db.messages && db'.groups == db.groups
  }

  /** At most one edge per unordered pair, and no edge from a user to itself. */
  ghost predicate PairsOk(fs: seq<Friendship>) {
    UniquePairs(fs) && NoSelfEdges(fs)
  }

  // ---- friend_request ------------------------------------------------------

  /** `friend_request(username)` from user `me`; `freshId` is the uuid a new
      edge receives. A request towards someone whose own request to `me` is
      pending accepts that request instead of adding an edge. */
  function FriendRequest(db: Snapshot, me: Id, username: string, freshId: Id): (r: Step)
    ensures OnlyFriendships(db, r.db)
    ensures Refused(r) ==> r.db == db
    ensures (forall u :: u in db.users ==> u.username != username) ==> Refused(r)
    ensures !Refused(r) ==>
      || (exists t :: t in db.users && t.username == username && t.id != me &&
            r.db.friendships == db.friendships + [Friendship(freshId, me, t.id, Pending, None)])
      || (exists k :: 0 <= k < |db.friendships| && db.friendships[k].to == me &&
            db.friendships[k].status == Pending &&
            r.db.friendships == db.friendships[k := db.friendships[k].(status := Accepted)])
  {
    var fs := db.friendships;
    match UserByName(db.users, username)
    case None => Refuse(db, ErrUserNotFound)
    case Some(target) =>
      if target.id == me then Refuse(db, ErrSelfRequest)
      else match EdgeIndex(fs, me, target.id)
        case Some(i) =>
          if fs[i].status == Accepted then Refuse(db, ErrAlreadyFriends)
          else if fs[i].from == me then Refuse(db, ErrAlreadySent)
          else
            // the edge joins the pair and does not start at me: target -> me
            assert fs[i].to == me && fs[i].status == Pending;
            Step(db.(friendships := fs[i := fs[i].(status := Accepted)]),
                 [Emit(Room(me), Success("Friend added!")),
                  Emit(Room(target.id), Success("Friend added!")),
                  Emit(Room(me), RefreshData),
                  Emit(Room(target.id), RefreshData)])
        case None =>
          Step(db.(friendships := fs + [Friendship(freshId, me, target.id, Pending, None)]),
               [Emit(Room(target.id), RefreshData),
                Emit(Caller, Success("Friend request sent."))])
  }

  /** What `friend_request` does towards an existing user `t`, when every
      pair has at most one edge: it refuses exactly when `t` is the caller,
      already a friend, or already asked by the caller; it accepts `t`'s own
      pending request in place; otherwise it appends one pending edge. */
  lemma FriendRequestOutcome(db: Snapshot, me: Id, username: string, freshId: Id, t: User)
    requires UserByName(db.users, username) == Some(t)
    requires UniquePairs(db.friendships)
    ensures var r := FriendRequest(db, me, username, freshId);
      var fs := db.friendships;
      && (Refused(r) <==>
            || t.id == me
            || (exists k :: 0 <= k < |fs| && Between(fs[k], me, t.id) &&
                  (fs[k].status == Accepted || fs[k].from == me)))
      && (t.id != me && (exists k :: 0 <= k < |fs| && fs[k].from == t.id && fs[k].to == me && fs[k].status == Pending) ==>
            exists k :: 0 <= k < |fs| && fs[k].from == t.id && fs[k].to == me &&
              r.db.friendships == fs[k := fs[k].(status := Accepted)] &&
              Emit(Room(me), RefreshData) in r.actions && Emit(Room(t.id), RefreshData) in r.actions)
      && (t.id != me && (forall k :: 0 <= k < |fs| ==> !Between(fs[k], me, t.id)) ==>
            r.db.friendships == fs + [Friendship(freshId, me, t.id, Pending, None)] &&
            Emit(Room(t.id), RefreshData) in r.actions)
  {
    var fs := db.friendships;
    if t.id != me {
      match EdgeIndex(fs, me, t.id)
      case None =>
      case Some(i) =>
        OnlyEdge(fs, me, t.id, i);
    }
  }

  /** Mutual consent: when `t` already asked `me`, `me` asking `t` leaves
      exactly one edge between them, and it is accepted. */
  lemma MutualRequestAccepts(db: Snapshot, me: Id, username: string, freshId: Id, t: User, k: nat)
    requires UserByName(db.users, username) == Some(t)
    requires UniquePairs(db.friendships)
    requires t.id != me
    requires k < |db.friendships|
    requires db.friendships[k].from == t.id && db.friendships[k].to == me
    requires db.friendships[k].status == Pending
    ensures var fs' := FriendRequest(db, me, username, freshId).db.friendships;
      && |fs'| == |db.friendships|
      && fs'[k].status == Accepted && Between(fs'[k], me, t.id)
      && forall j :: 0 <= j < |fs'| && j != k ==> !Between(fs'[j], me, t.id)
  {
    var fs := db.friendships;
    assert Between(fs[k], me, t.id);
    var i := EdgeIndex(fs, me, t.id).value;
    OnlyEdge(fs, me, t.id, i);
    assert i == k;
  }

  /** `friend_request` keeps at most one edge per pair and no self edge. */
  lemma FriendRequestKeepsPairs(db: Snapshot, me: Id, username: string, freshId: Id)
    requires PairsOk(db.friendships)
    ensures PairsOk(FriendRequest(db, me, username, freshId).db.friendships)
  {
    var fs := db.friendships;
    var r := FriendRequest(db, me, username, freshId);
    match UserByName(db.users, username)
    case None =>
    case Some(t) =>
      if t.id != me {
        match EdgeIndex(fs, me, t.id)
        case Some(i) =>
          SameEndsKeepPairs(fs, r.db.friendships);
        case None =>
          AppendKeepsPairs(fs, Friendship(freshId, me, t.id, Pending, None));
      }
  }

  /** Rewriting edges without moving their endpoints keeps `PairsOk`. */
  lemma SameEndsKeepPairs(fs: seq<Friendship>, gs: seq<Friendship>)
    requires PairsOk(fs)
    requires |gs| == |fs|
    requires forall k :: 0 <= k < |fs| ==> gs[k].from == fs[k].from && gs[k].to == fs[k].to
    ensures PairsOk(gs)
  {
    forall i, j | 0 <= i < j < |gs|
      ensures !Between(gs[j], gs[i].from, gs[i].to)
    {
      assert !Between(fs[j], fs[i].from, fs[i].to);
    }
  }

  /** Appending an edge for a pair that has none keeps `PairsOk`. */
  lemma AppendKeepsPairs(fs: seq<Friendship>, e: Friendship)
    requires PairsOk(fs)
    requires e.from != e.to
    requires forall k :: 0 <= k < |fs| ==> !Between(fs[k], e.from, e.to)
    ensures PairsOk(fs + [e])
  {
    var gs := fs + [e];
    forall i, j | 0 <= i < j < |gs|
      ensures !Between(gs[j], gs[i].from, gs[i].to)
    {
      if j < |fs| {
        assert !Between(fs[j], fs[i].from, fs[i].to);
      } else {
        assert !Between(fs[i], e.from, e.to);
      }
    }
  }

  /** Removing one edge keeps `PairsOk`. */
  lemma RemoveKeepsPairs(fs: seq<Friendship>, i: nat)
    requires PairsOk(fs)
    requires i < |fs|
    ensures PairsOk(RemoveAt(fs, i))
  {
    var gs := RemoveAt(fs, i);
    forall a, b | 0 <= a < b < |gs|
      ensures !Between(gs[b], gs[a].from, gs[a].to)
    {
      var a' := if a < i then a else a + 1;
      var b' := if b < i then b else b + 1;
      assert gs[a] == fs[a'] && gs[b] == fs[b'] && a' < b';
      assert !Between(fs[b'], fs[a'].from, fs[a'].to);
    }
  }

  // ---- accept_request / decline_request -----------------------------------

  /** The edge is a pending request with this id addressed to `me`. */
  predicate IsIncoming(f: Friendship, requestId: Id, me: Id) {
    f.id == requestId && f.to == me && f.status == Pending
  }

  /** `accept_request(requestId)`: turns the caller's pending incoming request
      with that id into an accepted friendship and notifies both users. */
  function AcceptRequest(db: Snapshot, me: Id, requestId: Id): (r: Step)
    ensures OnlyFriendships(db, r.db)
    ensures Refused(r) <==> forall k :: 0 <= k < |db.friendships| ==> !IsIncoming(db.friendships[k], requestId, me)
    ensures Refused(r) ==> r.db == db
    ensures !Refused(r) ==>
      exists k :: 0 <= k < |db.friendships| && IsIncoming(db.friendships[k], requestId, me) &&
        r.db.friendships == db.friendships[k := db.friendships[k].(status := Accepted)] &&
        Emit(Room(me), RefreshData) in r.actions &&
        Emit(Room(db.friendships[k].from), RefreshData) in r.actions
  {
    var fs := db.friendships;
    match FindIndex(fs, f => IsIncoming(f, requestId, me))
    case None => Refuse(db, ErrNoRequest)
    case Some(i) =>
      Step(db.(friendships := fs[i := fs[i].(status := Accepted)]),
           [Emit(Room(me), Success("Request accepted. Friend added!")),
            Emit(Room(fs[i].from), Success("Request accepted. Friend added!")),
            Emit(Room(me), RefreshData),
            Emit(Room(fs[i].from), RefreshData)])
  }

  /** `decline_request(requestId)`: deletes exactly the caller's pending
      incoming request with that id, every other edge kept in order. */
  function DeclineRequest(db: Snapshot, me: Id, requestId: Id): (r: Step)
    ensures OnlyFriendships(db, r.db)
    ensures Refused(r) <==> forall k :: 0 <= k < |db.friendships| ==> !IsIncoming(db.friendships[k], requestId, me)
    ensures Refused(r) ==> r.db == db
    ensures !Refused(r) ==>
      exists k :: 0 <= k < |db.friendships| && IsIncoming(db.friendships[k], requestId, me) &&
        r.db.friendships == RemoveAt(db.friendships, k) &&
        multiset(r.db.friendships) + multiset{db.friendships[k]} == multiset(db.friendships) &&
        Emit(Room(db.friendships[k].from), RefreshData) in r.actions
  {
    var fs := db.friendships;
    match FindIndex(fs, f => IsIncoming(f, requestId, me))
    case None => Refuse(db, ErrNoRequest)
    case Some(i) =>
      Step(db.(friendships := RemoveAt(fs, i)),
           [Emit(Room(me), Success("Request declined.")),
            Emit(Room(fs[i].from), RefreshData),
            Emit(Room(me), RefreshData)])
  }

  // ---- remove_friend -------------------------------------------------------

  predicate IsFriendship(f: Friendship, me: Id, friendId: Id) {
    Between(f, me, friendId) && f.status == Accepted
  }

  /** `remove_friend(friendId)`: deletes the accepted edge between the caller
      and `friendId`, every other edge kept in order. */
  function RemoveFriend(db: Snapshot, me: Id, friendId: Id): (r: Step)
    ensures OnlyFriendships(db, r.db)
    ensures Refused(r) <==> forall k :: 0 <= k < |db.friendships| ==> !IsFriendship(db.friendships[k], me, friendId)
    ensures Refused(r) ==> r.db == db
    ensures !Refused(r) ==>
      exists k :: 0 <= k < |db.friendships| && IsFriendship(db.friendships[k], me, friendId) &&
        r.db.friendships == RemoveAt(db.friendships, k) &&
        multiset(r.db.friendships) + multiset{db.friendships[k]} == multiset(db.friendships)
    ensures !Refused(r) ==> Emit(Room(me), RefreshData) in r.actions && Emit(Room(friendId), RefreshData) in r.actions
  {
    var fs := db.friendships;
    match FindIndex(fs, f => IsFriendship(f, me, friendId))
    case None => Refuse(db, ErrNoFriendship)
    case Some(i) =>
      Step(db.(friendships := RemoveAt(fs, i)),
           [Emit(Room(me), Success("Friend removed.")),
            Emit(Room(friendId), Success("Friend removed by partner.")),
            Emit(Room(me), RefreshData),
            Emit(Room(friendId), RefreshData)])
  }

  /** After a successful `remove_friend`, no edge joins the two users. */
  lemma RemoveFriendLeavesNoEdge(db: Snapshot, me: Id, friendId: Id)
    requires UniquePairs(db.friendships)
    requires !Refused(RemoveFriend(db, me, friendId))
    ensures var fs' := RemoveFriend(db, me, friendId).db.friendships;
      forall k :: 0 <= k < |fs'| ==> !Between(fs'[k], me, friendId)
  {
    var fs := db.friendships;
    var i := FindIndex(fs, f => IsFriendship(f, me, friendId)).value;
    var e := EdgeIndex(fs, me, friendId).value;
    OnlyEdge(fs, me, friendId, e);
    assert e == i;
  }

  // ---- block_user ----------------------------------------------------------

  /** The block toggle: a set blocker is cleared, whoever set it; an absent
      one becomes `me`. */
  function Toggle(f: Friendship, me: Id): (g: Friendship)
    ensures g.id == f.id && g.from == f.from && g.to == f.to && g.status == f.status
    ensures f.blocker.Some? <==> g.blocker.None?
    ensures f.blocker.None? ==> g.blocker == Some(me)
  {
    if f.blocker.Some? then f.(blocker := None) else f.(blocker := Some(me))
  }

  /** `block_user(targetId)`: toggles the blocker on the first edge of any
      status between the caller and `targetId`. */
  function BlockUser(db: Snapshot, me: Id, targetId: Id): (r: Step)
    ensures OnlyFriendships(db, r.db)
    ensures Refused(r) <==> forall k :: 0 <= k < |db.friendships| ==> !Between(db.friendships[k], me, targetId)
    ensures Refused(r) ==> r.db == db
    ensures !Refused(r) ==>
      exists k :: 0 <= k < |db.friendships| && Between(db.friendships[k], me, targetId) &&
        r.db.friendships == db.friendships[k := Toggle(db.friendships[k], me)]
    ensures !Refused(r) ==> Emit(Room(me), RefreshData) in r.actions && Emit(Room(targetId), RefreshData) in r.actions
  {
    var fs := db.friendships;
    match EdgeIndex(fs, me, targetId)
    case None => Refuse(db, ErrNoEdge)
    case Some(i) =>
      var text := if fs[i].blocker.Some? then "User unblocked." else "User blocked.";
      Step(db.(friendships := fs[i := Toggle(fs[i], me)]),
           [Emit(Caller, Success(text)),
            Emit(Room(me), RefreshData),
            Emit(Room(targetId), RefreshData)])
  }

  /** Blocking and then toggling again restores the snapshot, provided nobody
      but the caller blocked before. */
  lemma BlockTwiceRestores(db: Snapshot, me: Id, targetId: Id)
    requires !Refused(BlockUser(db, me, targetId))
    requires var i := EdgeIndex(db.friendships, me, targetId).value;
      db.friendships[i].blocker == None || db.friendships[i].blocker == Some(me)
    ensures BlockUser(BlockUser(db, me, targetId).db, me, targetId).db == db
  {
    var fs := db.friendships;
    var i := EdgeIndex(fs, me, targetId).value;
    var fs1 := fs[i := Toggle(fs[i], me)];
    FindIndexAfterUpdate(fs, f => Between(f, me, targetId), i, Toggle(fs[i], me));
    assert EdgeIndex(fs1, me, targetId) == Some(i);
    assert fs1[i := Toggle(fs1[i], me)] == fs;
  }

  /** The toggle does not check who blocked: the blocked user's own
      `block_user` call lifts the block. */
  lemma BlockedUserCanUnblock(db: Snapshot, a: Id, b: Id)
    requires UniquePairs(db.friendships)
    requires exists k :: 0 <= k < |db.friendships| && Between(db.friendships[k], a, b) && db.friendships[k].blocker == Some(a)
    ensures var fs' := BlockUser(db, b, a).db.friendships;
      forall k :: 0 <= k < |fs'| && Between(fs'[k], a, b) ==> fs'[k].blocker.None?
  {
    var fs := db.friendships;
    var i := EdgeIndex(fs, b, a).value;
    OnlyEdge(fs, b, a, i);
  }

  /** `accept_request` keeps `PairsOk`: it moves no endpoint. */
  lemma AcceptKeepsPairs(db: Snapshot, me: Id, requestId: Id)
    requires PairsOk(db.friendships)
    ensures PairsOk(AcceptRequest(db, me, requestId).db.friendships)
  {
    SameEndsKeepPairs(db.friendships, AcceptRequest(db, me, requestId).db.friendships);
  }

  /** `block_user` keeps `PairsOk`: it moves no endpoint. */
  lemma BlockKeepsPairs(db: Snapshot, me: Id, targetId: Id)
    requires PairsOk(db.friendships)
    ensures PairsOk(BlockUser(db, me, targetId).db.friendships)
  {
    SameEndsKeepPairs(db.friendships, BlockUser(db, me, targetId).db.friendships);
  }

  /** `decline_request` keeps `PairsOk`: it removes at most one edge. */
  lemma DeclineKeepsPairs(db: Snapshot, me: Id, requestId: Id)
    requires PairsOk(db.friendships)
    ensures PairsOk(DeclineRequest(db, me, requestId).db.friendships)
  {
    match FindIndex(db.friendships, f => IsIncoming(f, requestId, me))
    case None =>
    case Some(i) => RemoveKeepsPairs(db.friendships, i);
  }

  /** `remove_friend` keeps `PairsOk`: it removes at most one edge. */
  lemma RemoveFriendKeepsPairs(db: Snapshot, me: Id, friendId: Id)
    requires PairsOk(db.friendships)
    ensures PairsOk(RemoveFriend(db, me, friendId).db.friendships)
  {
    match FindIndex(db.friendships, f => IsFriendship(f, me, friendId))
    case None =>
    case Some(i) => RemoveKeepsPairs(db.friendships, i);
  }
}

=== FILE: groups.dfy ===
/** The group handlers of the socket server: `create_group` and
    `add_members_to_group`, plus `getMyGroups`. */
module Groups {
  import opened Base
  import opened Model

  const ErrTooFew := "Group needs at least two members (including you)."
  const ErrUnknownMember := "One or more selected users were not found."
  const ErrNoGroup := "Group not found."
  const ErrNotAdmin := "Only group admins can add members."
  const ErrNoneAdded := "No new members were added."

  /** Only the group list may change. */
  predicate OnlyGroups(db: Snapshot, db': Snapshot) {
    db'.users == db.users && db'.messages == db.messages && db'.friendships == db.friendships
  }

  /** `getMyGroups`: the groups listing `me` among their members, in storage
      order. */
  function MyGroups(groups: seq<Group>, me: Id): (r: seq<Group>)
    ensures forall g :: g in r <==> g in groups && IsMember(g.members, me)
    ensures forall g :: multiset(r)[g] == if IsMember(g.members, me) then multiset(groups)[g] else 0
  {
    var p := (g: Group) => IsMember(g.members, me);
    forall g ensures multiset(Filter(groups, p))[g] == if p(g) then multiset(groups)[g] else 0 {
      FilterCount(groups, p, g);
    }
    Filter(groups, p)
  }

  /** The member record `{ id, name }` of each id that names a user, in
      order; unknown ids are dropped. */
  function ResolveMembers(users: seq<User>, ids: seq<Id>): (r: seq<Member>)
    ensures |r| <= |ids|
    ensures (forall k :: 0 <= k < |ids| ==> IsUser(users, ids[k])) ==>
      |r| == |ids| && forall k :: 0 <= k < |ids| ==> r[k].id == ids[k] && NameOf(users, ids[k]) == Some(r[k].name)
    ensures (exists k :: 0 <= k < |ids| && !IsUser(users, ids[k])) ==> |r| < |ids|
  {
    if |ids| == 0 then []
    else
      var rest := ResolveMembers(users, ids[1..]);
      match UserById(users, ids[0])
      case None => rest
      case Some(u) => [Member(u.id, u.username)] + rest
  }

  /** The avatar URL the server derives from the first two characters of the
      group name when no avatar is given. */
  function DefaultAvatar(name: string): string {
    "https://ui-avatars.com/api/?name=" + name[..if |name| < 2 then |name| else 2]
      + "&background=3b82f6&color=fff&size=128&bold=true"
  }

  /** For each member in order: a `refresh_data` to the member's room, then,
      when the member is in `joining` and online, a subscription of the
      member's connection to the group's room. */
  function NotifyMembers(ms: seq<Member>, gid: Id, joining: seq<Id>, online: set<Id>): (r: seq<Action>)
    ensures |r| >= |ms|
    ensures forall k :: 0 <= k < |ms| ==> Emit(Room(ms[k].id), RefreshData) in r
    ensures forall a :: a in r ==> (a.Emit? && a.event == RefreshData) || a.Join?
    ensures forall a :: a in r && a.Emit? ==> a.dest.Room? && IsMember(ms, a.dest.id)
    ensures forall u, g :: Join(u, g) in r <==> g == gid && IsMember(ms, u) && u in joining && u in online
  {
    if |ms| == 0 then []
    else
      [Emit(Room(ms[0].id), RefreshData)]
      + (if ms[0].id in joining && ms[0].id in online then [Join(ms[0].id, gid)] else [])
      + NotifyMembers(ms[1..], gid, joining, online)
  }

  // ---- create_group --------------------------------------------------------

  /** The group `create_group` appends: uuid `gid`, the given avatar or,
      when none is given, the one derived from the name, the caller as
      creator and sole admin, and as members the named users plus the
      caller, each once, in order of first mention, with their current
      display names. */
  ghost predicate NewGroup(g: Group, users: seq<User>, me: Id, memberIds: seq<Id>, gid: Id, name: string, avatar: string) {
    && g.id == gid && g.name == name && g.creator == me && g.admins == [me]
    && g.avatar == (if avatar == "" then DefaultAvatar(name) else avatar)
    && MemberIds(g.members) == Dedup(memberIds + [me])
    && GroupOk(g)
    && (forall x :: IsMember(g.members, x) <==> x in memberIds || x == me)
    && (forall k :: 0 <= k < |g.members| ==> NameOf(users, g.members[k].id) == Some(g.members[k].name))
  }

  /** The outcome of `create_group`'s member checks. */
  datatype Validated = TooFew | UnknownMember | Valid(members: seq<Member>)

  /** The member checks of `create_group`: the named ids plus the caller,
      de-duplicated in first-occurrence order, must number at least two and
      must all name users; the member records are then built in that order. */
  function ValidateMembers(users: seq<User>, me: Id, memberIds: seq<Id>): (v: Validated)
    ensures v.TooFew? <==> forall x :: x in memberIds ==> x == me
    ensures v.UnknownMember? <==>
      !v.TooFew? && !(IsUser(users, me) && forall x :: x in memberIds ==> IsUser(users, x))
    ensures v.Valid? ==>
      && |v.members| >= 2
      && DistinctMembers(v.members)
      && (forall x :: IsMember(v.members, x) <==> x in memberIds || x == me)
      && (forall k :: 0 <= k < |v.members| ==> NameOf(users, v.members[k].id) == Some(v.members[k].name))
      && MemberIds(v.members) == Dedup(memberIds + [me])
  {
    var all := Dedup(memberIds + [me]);
    DedupSize(memberIds, me);
    AllNamedUsers(users, memberIds, me);
    if |all| < 2 then TooFew
    else
      var ms := ResolveMembers(users, all);
      if |ms| != |all| then UnknownMember
      else
        ResolvedMembers(users, all);
        ResolvedIds(users, all);
        Valid(ms)
  }

  /** The group built from a valid member list is the group `create_group`
      promises. */
  lemma ValidIsNew(users: seq<User>, me: Id, memberIds: seq<Id>, gid: Id, name: string, avatar: string, ms: seq<Member>)
    requires ValidateMembers(users, me, memberIds) == Valid(ms)
    ensures NewGroup(Group(gid, name, if avatar == "" then DefaultAvatar(name) else avatar, me, ms, [me]),
                     users, me, memberIds, gid, name, avatar)
  {
  }

  /** `create_group({ name, members, avatar })` from `me`; `freshId` is the new
      group's uuid, `avatar == ""` stands for a missing avatar, and `online`
      is the set of connected users. */
  function CreateGroup(db: Snapshot, me: Id, name: string, memberIds: seq<Id>, avatar: string,
                       freshId: Id, online: set<Id>): (r: Step)
    ensures OnlyGroups(db, r.db)
    ensures Refused(r) ==> r.db == db
    ensures Refused(r) <==>
      || (forall x :: x in memberIds ==> x == me)
      || !IsUser(db.users, me)
      || (exists x :: x in memberIds && !IsUser(db.users, x))
    ensures !Refused(r) ==>
      && |r.db.groups| == |db.groups| + 1
      && r.db.groups[..|db.groups|] == db.groups
      && NewGroup(r.db.groups[|db.groups|], db.users, me, memberIds, freshId, name, avatar)
  {
    match ValidateMembers(db.users, me, memberIds)
    case TooFew => Refuse(db, ErrTooFew)
    case UnknownMember => Refuse(db, ErrUnknownMember)
    case Valid(ms) =>
      var g := Group(freshId, name, if avatar == "" then DefaultAvatar(name) else avatar, me, ms, [me]);
      ValidIsNew(db.users, me, memberIds, freshId, name, avatar, ms);
      Step(db.(groups := db.groups + [g]),
           NotifyMembers(ms, freshId, Dedup(memberIds + [me]), online)
           + [Emit(Caller, Success("Group created successfully."))])
  }

  /** The de-duplicated member list has fewer than two entries exactly when
      nobody other than the caller was named. */
  lemma DedupSize(ids: seq<Id>, me: Id)
    ensures |Dedup(ids + [me])| < 2 <==> forall x :: x in ids ==> x == me
  {
    var all := Dedup(ids + [me]);
    assert me in all;
    if |all| >= 2 {
      assert all[0] in ids + [me] && all[1] in ids + [me] && all[0] != all[1];
      if all[0] != me {
        assert all[0] in ids;
      } else {
        assert all[1] in ids && all[1] != me;
      }
    } else {
      forall x | x in ids ensures x == me {
        assert x in all;
        assert all[0] == me;
      }
    }
  }

  /** Every entry of the de-duplicated list is a user exactly when the caller
      and every named id are users. */
  lemma AllNamedUsers(users: seq<User>, ids: seq<Id>, me: Id)
    ensures (forall k :: 0 <= k < |Dedup(ids + [me])| ==> IsUser(users, Dedup(ids + [me])[k])) ==>
      (IsUser(users, me) && forall x :: x in ids ==> IsUser(users, x))
    ensures (IsUser(users, me) && forall x :: x in ids ==> IsUser(users, x)) ==>
      (forall k :: 0 <= k < |Dedup(ids + [me])| ==> IsUser(users, Dedup(ids + [me])[k]))
  {
    var all := Dedup(ids + [me]);
    var lhs := forall k :: 0 <= k < |all| ==> IsUser(users, all[k]);
    var rhs := IsUser(users, me) && forall x :: x in ids ==> IsUser(users, x);
    if lhs {
      assert me in all;
      var i :| 0 <= i < |all| && all[i] == me;
      forall x | x in ids ensures IsUser(users, x) {
        assert x in all;
        var j :| 0 <= j < |all| && all[j] == x;
      }
      assert rhs;
    }
    if rhs {
      forall k | 0 <= k < |all| ensures IsUser(users, all[k]) {
        assert all[k] in all;
        assert all[k] in ids + [me];
      }
      assert lhs;
    }
  }

  /** Resolving ids that all name users keeps every id, in order. */
  lemma ResolvedIds(users: seq<User>, ids: seq<Id>)
    requires forall k :: 0 <= k < |ids| ==> IsUser(users, ids[k])
    ensures MemberIds(ResolveMembers(users, ids)) == ids
  {
    var ms := ResolveMembers(users, ids);
    assert forall k :: 0 <= k < |ids| ==> MemberIds(ms)[k] == ids[k];
  }

  /** Resolving distinct ids that all name users gives one member per id,
      distinct, with exactly those ids. */
  lemma ResolvedMembers(users: seq<User>, ids: seq<Id>)
    requires NoDup(ids)
    requires forall k :: 0 <= k < |ids| ==> IsUser(users, ids[k])
    ensures var ms := ResolveMembers(users, ids);
      && |ms| == |ids|
      && DistinctMembers(ms)
      && (forall x :: IsMember(ms, x) <==> x in ids)
  {
    var ms := ResolveMembers(users, ids);
    forall x ensures IsMember(ms, x) <==> x in ids {
      if x in ids {
        var k :| 0 <= k < |ids| && ids[k] == x;
        assert ms[k].id == x;
      }
    }
  }

  /** When the caller and every named id are users and someone besides the
      caller is named, `create_group` succeeds, notifies every member and subscribes
      exactly the online members to the new group's room. */
  lemma CreateGroupNotifies(db: Snapshot, me: Id, name: string, memberIds: seq<Id>, avatar: string,
                            freshId: Id, online: set<Id>)
    requires IsUser(db.users, me) && forall x :: x in memberIds ==> IsUser(db.users, x)
    requires exists x :: x in memberIds && x != me
    ensures var r := CreateGroup(db, me, name, memberIds, avatar, freshId, online);
      var g := r.db.groups[|db.groups|];
      && (forall k :: 0 <= k < |g.members| ==> Emit(Room(g.members[k].id), RefreshData) in r.actions)
      && (forall u :: Join(u, freshId) in r.actions <==> IsMember(g.members, u) && u in online)
      && Emit(Caller, Success("Group created successfully.")) in r.actions
  {
    var v := ValidateMembers(db.users, me, memberIds);
    var all := Dedup(memberIds + [me]);
    forall u | IsMember(v.members, u) ensures u in all {
      assert u in memberIds || u == me;
    }
  }

  /** On valid input, `create_group` lists the members in the order the ids
      are first mentioned, the caller counting as mentioned last. */
  lemma CreateGroupMemberOrder(db: Snapshot, me: Id, name: string, memberIds: seq<Id>, avatar: string,
                               freshId: Id, online: set<Id>)
    requires IsUser(db.users, me) && forall x :: x in memberIds ==> IsUser(db.users, x)
    requires exists x :: x in memberIds && x != me
    ensures InFirstOrder(CreateGroup(db, me, name, memberIds, avatar, freshId, online).db.groups[|db.groups|].members,
                         memberIds + [me])
  {
    var v := ValidateMembers(db.users, me, memberIds);
    assert !v.TooFew? && !v.UnknownMember?;
    var r := CreateGroup(db, me, name, memberIds, avatar, freshId, online);
    assert r.db.groups[|db.groups|].members == v.members;
    MembersInFirstOrder(v.members, memberIds + [me]);
  }

  /** Every member's id occurs in `all`, and a member listed before another
      occurs first in `all` before it. */
  predicate InFirstOrder(ms: seq<Member>, all: seq<Id>) {
    forall i, j :: 0 <= i < j < |ms| ==>
      && ms[i].id in all && ms[j].id in all
      && FirstIndexOf(all, ms[i].id) < FirstIndexOf(all, ms[j].id)
  }

  /** Members whose ids are the de-duplication of `all` come in the order of
      first occurrence in `all`. */
  lemma MembersInFirstOrder(ms: seq<Member>, all: seq<Id>)
    requires MemberIds(ms) == Dedup(all)
    ensures InFirstOrder(ms, all)
  {
    DedupFirstOccurrence(all);
    forall i, j | 0 <= i < j < |ms|
      ensures ms[i].id in all && ms[j].id in all && FirstIndexOf(all, ms[i].id) < FirstIndexOf(all, ms[j].id)
    {
      assert MemberIds(ms)[i] == ms[i].id && MemberIds(ms)[j] == ms[j].id;
    }
  }

  /** Creating a group naming nobody but the caller fails, whoever the
      caller is. */
  lemma CreateGroupNeedsTwo(db: Snapshot, me: Id, name: string, memberIds: seq<Id>, avatar: string,
                            freshId: Id, online: set<Id>)
    requires forall x :: x in memberIds ==> x == me
    ensures var r := CreateGroup(db, me, name, memberIds, avatar, freshId, online);
      Refused(r) && r.db == db && r.actions == [Emit(Caller, Error(ErrTooFew))]
  {
  }

  /** Creating a group with one other existing user succeeds, with both as
      members and the caller as sole admin. */
  lemma CreateGroupWithOne(db: Snapshot, me: Id, other: Id, name: string, avatar: string, freshId: Id, online: set<Id>)
    requires IsUser(db.users, me) && IsUser(db.users, other) && other != me
    ensures var r := CreateGroup(db, me, name, [other], avatar, freshId, online);
      && !Refused(r)
      && var g := r.db.groups[|db.groups|];
      && IsMember(g.members, other) && IsMember(g.members, me) && g.admins == [me]
  {
    var v := ValidateMembers(db.users, me, [other]);
    assert other in [other] && other != me;
    assert !v.TooFew?;
    assert forall x :: x in [other] ==> x == other;
    assert !v.UnknownMember?;
  }

  /** The member list after the add loop, and the ids it added. */
  datatype Added = Added(members: seq<Member>, newIds: seq<Id>)

  /** The loop of `add_members_to_group`: each id in turn that is not yet a
      member (of the list as grown so far) and names a user is appended. */
  function AddNew(members: seq<Member>, ids: seq<Id>, users: seq<User>): (r: Added)
    ensures |r.members| == |members| + |r.newIds|
    ensures r.members[..|members|] == members
    ensures forall k :: 0 <= k < |r.newIds| ==> r.members[|members| + k].id == r.newIds[k]
    decreases |ids|
  {
    if |ids| == 0 then Added(members, [])
    else if IsMember(members, ids[0]) then AddNew(members, ids[1..], users)
    else match UserById(users, ids[0])
      case None => AddNew(members, ids[1..], users)
      case Some(u) =>
        var rest := AddNew(members + [Member(u.id, u.username)], ids[1..], users);
        Added(rest.members, [u.id] + rest.newIds)
  }

  /** Every added id came from the list, names a user, and was not a member. */
  lemma {:induction false} AddNewAddsOnlyNewUsers(members: seq<Member>, ids: seq<Id>, users: seq<User>)
    ensures forall x :: x in AddNew(members, ids, users).newIds ==>
      x in ids && IsUser(users, x) && !IsMember(members, x)
    decreases |ids|
  {
    if |ids| > 0 {
      assert forall x :: x in ids[1..] ==> x in ids;
      if IsMember(members, ids[0]) {
        AddNewAddsOnlyNewUsers(members, ids[1..], users);
      } else {
        match UserById(users, ids[0])
        case None =>
          AddNewAddsOnlyNewUsers(members, ids[1..], users);
        case Some(u) =>
          var grown := members + [Member(u.id, u.username)];
          AddNewAddsOnlyNewUsers(grown, ids[1..], users);
          forall x | IsMember(members, x) ensures IsMember(grown, x) {
            var i :| 0 <= i < |members| && members[i].id == x;
            assert grown[i] == members[i];
          }
      }
    }
  }

  /** Each added member record carries the user's current display name. */
  lemma {:induction false} AddNewNames(members: seq<Member>, ids: seq<Id>, users: seq<User>)
    ensures forall k :: 0 <= k < |AddNew(members, ids, users).newIds| ==>
      NameOf(users, AddNew(members, ids, users).newIds[k]) == Some(AddNew(members, ids, users).members[|members| + k].name)
    decreases |ids|
  {
    if |ids| > 0 {
      if IsMember(members, ids[0]) {
        assert AddNew(members, ids, users) == AddNew(members, ids[1..], users);
        AddNewNames(members, ids[1..], users);
      } else {
        match UserById(users, ids[0])
        case None =>
          AddNewNames(members, ids[1..], users);
        case Some(u) =>
          var grown := members + [Member(u.id, u.username)];
          AddNewNames(grown, ids[1..], users);
          var rest := AddNew(grown, ids[1..], users);
          var r := AddNew(members, ids, users);
          assert r == Added(rest.members, [u.id] + rest.newIds);
          assert rest.members[..|grown|][|members|] == grown[|members|];
          assert NameOf(users, u.id) == Some(u.username);
          forall k | 0 <= k < |r.newIds|
            ensures NameOf(users, r.newIds[k]) == Some(r.members[|members| + k].name)
          {
            if k > 0 {
              assert r.newIds[k] == rest.newIds[k - 1];
              assert r.members[|members| + k] == rest.members[|grown| + (k - 1)];
              assert NameOf(users, rest.newIds[k - 1]) == Some(rest.members[|grown| + (k - 1)].name);
            } else {
              assert r.members[|members|] == grown[|members|];
            }
          }
      }
    }
  }

  /** Once the loop is over, every listed id that names a user is a member,
      and every earlier member still is. */
  lemma {:induction false} AddNewCovers(members: seq<Member>, ids: seq<Id>, users: seq<User>)
    ensures var r := AddNew(members, ids, users);
      forall x :: (x in ids && IsUser(users, x)) || IsMember(members, x) ==> IsMember(r.members, x)
    decreases |ids|
  {
    var r := AddNew(members, ids, users);
    forall x | IsMember(members, x) ensures IsMember(r.members, x) {
      var i :| 0 <= i < |members| && members[i].id == x;
      assert r.members[..|members|][i] == members[i];
    }
    if |ids| > 0 {
      if IsMember(members, ids[0]) {
        AddNewCovers(members, ids[1..], users);
      } else {
        match UserById(users, ids[0])
        case None =>
          AddNewCovers(members, ids[1..], users);
        case Some(u) =>
          var grown := members + [Member(u.id, u.username)];
          AddNewCovers(grown, ids[1..], users);
          assert grown[|members|].id == ids[0];
          assert IsMember(grown, ids[0]);
          forall x | IsMember(members, x) ensures IsMember(grown, x) {
            var i :| 0 <= i < |members| && members[i].id == x;
            assert grown[i].id == x;
          }
      }
    }
  }

  /** The loop never lists a user twice. */
  lemma {:induction false} AddNewKeepsDistinct(members: seq<Member>, ids: seq<Id>, users: seq<User>)
    requires DistinctMembers(members)
    ensures DistinctMembers(AddNew(members, ids, users).members)
    decreases |ids|
  {
    if |ids| > 0 && !IsMember(members, ids[0]) {
      match UserById(users, ids[0])
      case None =>
        AddNewKeepsDistinct(members, ids[1..], users);
      case Some(u) =>
        var grown := members + [Member(u.id, u.username)];
        forall i, j | 0 <= i < j < |grown| ensures grown[i].id != grown[j].id {
          if j == |members| {
            assert grown[i] == members[i];
          }
        }
        AddNewKeepsDistinct(grown, ids[1..], users);
    } else if |ids| > 0 {
      AddNewKeepsDistinct(members, ids[1..], users);
    }
  }

  /** The caller may manage the group: an admin, or its creator. */
  predicate MayManage(g: Group, me: Id) {
    me in g.admins || g.creator == me
  }

  /** Writes a count in decimal, as the template string of the success text. */
  function NatToString(n: nat): string {
    var digit := "0123456789"[n % 10];
    if n < 10 then [digit] else NatToString(n / 10) + [digit]
  }

  /** `add_members_to_group({ groupId, membersToAdd })` from `me`. */
  function AddMembers(db: Snapshot, me: Id, groupId: Id, toAdd: seq<Id>, online: set<Id>): (r: Step)
    ensures OnlyGroups(db, r.db)
    ensures Refused(r) ==> r.db == db
    ensures (forall j :: 0 <= j < |db.groups| ==> db.groups[j].id != groupId) ==> Refused(r)
    ensures !Refused(r) ==>
      exists j :: 0 <= j < |db.groups| && db.groups[j].id == groupId && MayManage(db.groups[j], me)
        && |r.db.groups| == |db.groups|
        && r.db.groups == db.groups[j := db.groups[j].(members := r.db.groups[j].members)]
        && |r.db.groups[j].members| > |db.groups[j].members|
        && r.db.groups[j].members[..|db.groups[j].members|] == db.groups[j].members
  {
    match GroupIndex(db.groups, groupId)
    case None => Refuse(db, ErrNoGroup)
    case Some(j) =>
      var g := db.groups[j];
      if !MayManage(g, me) then Refuse(db, ErrNotAdmin)
      else
        var added := AddNew(g.members, toAdd, db.users);
        if |added.newIds| > 0 then
          Step(db.(groups := db.groups[j := g.(members := added.members)]),
               NotifyMembers(added.members, g.id, added.newIds, online)
               + [Emit(Caller, Success(NatToString(|added.newIds|) + " members added."))])
        else Refuse(db, ErrNoneAdded)
  }

  /** For an admin or the creator of group `j`: the call is refused exactly
      when no listed id names a user outside the group; otherwise the new
      members are listed users who were not members, every listed user ends
      up a member, the list stays duplicate-free, every member is notified,
      and exactly the online newcomers join the group's room. */
  lemma AddMembersOutcome(db: Snapshot, me: Id, groupId: Id, toAdd: seq<Id>, online: set<Id>, j: nat)
    requires GroupIndex(db.groups, groupId) == Some(j)
    requires MayManage(db.groups[j], me)
    ensures var r := AddMembers(db, me, groupId, toAdd, online);
      var old_ := db.groups[j].members;
      var new_ := r.db.groups[j].members;
      && (Refused(r) <==> forall x :: x in toAdd && IsUser(db.users, x) ==> IsMember(old_, x))
      && (!Refused(r) ==>
            && (forall k :: |old_| <= k < |new_| ==>
                  new_[k].id in toAdd && IsUser(db.users, new_[k].id) && !IsMember(old_, new_[k].id))
            && (forall x :: x in toAdd && IsUser(db.users, x) ==> IsMember(new_, x))
            && (DistinctMembers(old_) ==> DistinctMembers(new_))
            && (forall k :: 0 <= k < |new_| ==> Emit(Room(new_[k].id), RefreshData) in r.actions)
            && (forall u :: Join(u, groupId) in r.actions ==> u in online && !IsMember(old_, u)))
  {
    var g := db.groups[j];
    var added := AddNew(g.members, toAdd, db.users);
    AddNewAddsOnlyNewUsers(g.members, toAdd, db.users);
    AddNewNames(g.members, toAdd, db.users);
    AddNewCovers(g.members, toAdd, db.users);
    if DistinctMembers(g.members) {
      AddNewKeepsDistinct(g.members, toAdd, db.users);
    }
    if |added.newIds| == 0 {
      assert added.members == g.members;
    } else {
      assert added.newIds[0] in toAdd;
      forall k | |g.members| <= k < |added.members|
        ensures added.members[k].id in toAdd && IsUser(db.users, added.members[k].id) && !IsMember(g.members, added.members[k].id)
      {
        assert added.members[k].id == added.newIds[k - |g.members|];
      }
      forall u | u in added.newIds ensures !IsMember(g.members, u) {
        var k :| 0 <= k < |added.newIds| && added.newIds[k] == u;
      }
    }
  }

  /** For an admin or the creator of group `j`, every listed user who was not
      a member and is online joins the group's room: together with
      `AddMembersOutcome`, the room subscriptions are exactly the online
      newcomers. */
  lemma AddMembersJoinsNewcomers(db: Snapshot, me: Id, groupId: Id, toAdd: seq<Id>, online: set<Id>, j: nat)
    requires GroupIndex(db.groups, groupId) == Some(j)
    requires MayManage(db.groups[j], me)
    ensures var r := AddMembers(db, me, groupId, toAdd, online);
      forall u :: u in toAdd && IsUser(db.users, u) && !IsMember(db.groups[j].members, u) && u in online ==>
        Join(u, groupId) in r.actions
  {
    var g := db.groups[j];
    var added := AddNew(g.members, toAdd, db.users);
    AddNewCovers(g.members, toAdd, db.users);
    forall u | u in toAdd && IsUser(db.users, u) && !IsMember(g.members, u)
      ensures u in added.newIds
    {
      NewMemberIsNew(g.members, added, u);
    }
  }

  /** A member of the grown list who was not an old member is one of the
      added ids. */
  lemma NewMemberIsNew(old_: seq<Member>, added: Added, u: Id)
    requires |added.members| == |old_| + |added.newIds|
    requires added.members[..|old_|] == old_
    requires forall k :: 0 <= k < |added.newIds| ==> added.members[|old_| + k].id == added.newIds[k]
    requires IsMember(added.members, u) && !IsMember(old_, u)
    ensures u in added.newIds
  {
    var k :| 0 <= k < |added.members| && added.members[k].id == u;
    if k < |old_| {
      assert false;
    }
    assert added.newIds[k - |old_|] == u;
  }

  /** A caller who is neither admin nor creator cannot add members. */
  lemma AddMembersNeedsAdmin(db: Snapshot, me: Id, groupId: Id, toAdd: seq<Id>, online: set<Id>, j: nat)
    requires GroupIndex(db.groups, groupId) == Some(j)
    requires !MayManage(db.groups[j], me)
    ensures var r := AddMembers(db, me, groupId, toAdd, online);
      r.db == db && r.actions == [Emit(Caller, Error(ErrNotAdmin))]
  {
  }

  /** `create_group` keeps every group well formed. */
  lemma CreateGroupKeepsGroups(db: Snapshot, me: Id, name: string, memberIds: seq<Id>, avatar: string,
                               freshId: Id, online: set<Id>)
    requires forall k :: 0 <= k < |db.groups| ==> GroupOk(db.groups[k])
    ensures var gs := CreateGroup(db, me, name, memberIds, avatar, freshId, online).db.groups;
      forall k :: 0 <= k < |gs| ==> GroupOk(gs[k])
  {
    var gs := CreateGroup(db, me, name, memberIds, avatar, freshId, online).db.groups;
    if |gs| != |db.groups| {
      assert forall k :: 0 <= k < |db.groups| ==> gs[k] == gs[..|db.groups|][k];
    }
  }

  /** `add_members_to_group` keeps every group well formed. */
  lemma AddMembersKeepsGroups(db: Snapshot, me: Id, groupId: Id, toAdd: seq<Id>, online: set<Id>)
    requires forall k :: 0 <= k < |db.groups| ==> GroupOk(db.groups[k])
    ensures var gs := AddMembers(db, me, groupId, toAdd, online).db.groups;
      forall k :: 0 <= k < |gs| ==> GroupOk(gs[k])
  {
    match GroupIndex(db.groups, groupId)
    case None =>
    case Some(j) =>
      if MayManage(db.groups[j], me) {
        AddMembersOutcome(db, me, groupId, toAdd, online, j);
        assert GroupOk(db.groups[j]);
      }
  }
}

=== FILE: history.dfy ===
/** `get_history`: a group's messages in storage order, or the messages of a
    direct conversation sorted by timestamp with a stable sort (the order of
    `Array.prototype.sort` with a numeric comparator). */
module History {
  import opened Base
  import opened Model
  import Messaging

  /** The direct-message filter: sent by `me` to `peer` or by `peer` to `me`.
      Like the server, it does not look at `isGroup`. */
  predicate InDm(m: Message, me: Id, peer: Id) {
    (m.from == me && m.to == peer) || (m.from == peer && m.to == me)
  }

  /** The group filter: addressed to the group and flagged as a group message. */
  predicate InGroup(m: Message, gid: Id) {
    m.to == gid && m.isGroup
  }

  /** The filter `get_history` applies for this chat. */
  function InChat(me: Id, chatId: Id, isGroup: bool): Message -> bool {
    (m: Message) => if isGroup then InGroup(m, chatId) else InDm(m, me, chatId)
  }

  /** Messages stamped exactly `t`. */
  function AtTime(t: nat): Message -> bool {
    (m: Message) => m.timestamp == t
  }

  ghost predicate SortedByTime(s: seq<Message>) {
    forall i, j :: 0 <= i < j < |s| ==> s[i].timestamp <= s[j].timestamp
  }

  /** Puts `m` in front of the first element stamped no earlier than `m`. */
  function Insert(m: Message, s: seq<Message>): (r: seq<Message>)
    ensures |r| == |s| + 1
    ensures r[0] == m || (|s| > 0 && r[0] == s[0])
  {
    if |s| == 0 then [m]
    else if m.timestamp <= s[0].timestamp then [m] + s
    else [s[0]] + Insert(m, s[1..])
  }

  /** Inserting adds exactly the inserted message. */
  lemma {:induction false} InsertAddsOne(m: Message, s: seq<Message>)
    ensures multiset(Insert(m, s)) == multiset(s) + multiset{m}
  {
    if |s| > 0 && m.timestamp > s[0].timestamp {
      InsertAddsOne(m, s[1..]);
      assert s == [s[0]] + s[1..];
    }
  }

  /** Inserting into a sorted sequence keeps it sorted. */
  lemma {:induction false} InsertSorted(m: Message, s: seq<Message>)
    requires SortedByTime(s)
    ensures SortedByTime(Insert(m, s))
  {
    if |s| > 0 && m.timestamp > s[0].timestamp {
      var rest := Insert(m, s[1..]);
      InsertSorted(m, s[1..]);
      var r := [s[0]] + rest;
      assert s[0].timestamp <= rest[0].timestamp;
      forall i, j | 0 <= i < j < |r| ensures r[i].timestamp <= r[j].timestamp {
        if i == 0 && j > 1 {
          assert rest[0].timestamp <= rest[j - 1].timestamp;
        }
      }
    }
  }

  /** Ascending by timestamp, by insertion. */
  function SortByTime(s: seq<Message>): (r: seq<Message>)
    ensures |r| == |s|
    ensures multiset(r) == multiset(s)
    ensures SortedByTime(r)
  {
    if |s| == 0 then []
    else
      assert s == [s[0]] + s[1..];
      InsertAddsOne(s[0], SortByTime(s[1..]));
      InsertSorted(s[0], SortByTime(s[1..]));
      Insert(s[0], SortByTime(s[1..]))
  }

  /** Inserting `m` adds it just before the messages it ties with. */
  lemma {:induction false} InsertTies(m: Message, s: seq<Message>, t: nat)
    ensures Filter(Insert(m, s), AtTime(t)) == (if m.timestamp == t then [m] else []) + Filter(s, AtTime(t))
  {
    var p := AtTime(t);
    if |s| == 0 {
      FilterCons(m, s, p);
    } else if m.timestamp <= s[0].timestamp {
      FilterCons(m, s, p);
    } else {
      var rest := Insert(m, s[1..]);
      InsertTies(m, s[1..], t);
      FilterCons(s[0], rest, p);
      FilterCons(s[0], s[1..], p);
      assert s == [s[0]] + s[1..];
      if m.timestamp == t {
        assert !p(s[0]);
      }
    }
  }

  /** The sort is stable: messages with equal timestamps keep their storage
      order. */
  lemma {:induction false} SortStable(s: seq<Message>, t: nat)
    ensures Filter(SortByTime(s), AtTime(t)) == Filter(s, AtTime(t))
  {
    if |s| > 0 {
      SortStable(s[1..], t);
      InsertTies(s[0], SortByTime(s[1..]), t);
    }
  }

  /** Inserting an element into a prefix leaves a last, latest element last. */
  lemma {:induction false} InsertBeforeLatest(x: Message, s: seq<Message>, m: Message)
    requires x.timestamp <= m.timestamp
    ensures Insert(x, s + [m]) == Insert(x, s) + [m]
  {
    if |s| == 0 {
    } else if x.timestamp <= s[0].timestamp {
    } else {
      assert (s + [m])[1..] == s[1..] + [m];
      InsertBeforeLatest(x, s[1..], m);
    }
  }

  /** A message stamped no earlier than every other one sorts last. */
  lemma {:induction false} SortAppendLatest(s: seq<Message>, m: Message)
    requires forall k :: 0 <= k < |s| ==> s[k].timestamp <= m.timestamp
    ensures SortByTime(s + [m]) == SortByTime(s) + [m]
  {
    if |s| > 0 {
      assert (s + [m])[1..] == s[1..] + [m];
      SortAppendLatest(s[1..], m);
      InsertBeforeLatest(s[0], SortByTime(s[1..]), m);
    }
  }

  /** The messages `get_history` returns for `chatId` as seen by `me`. */
  function HistoryOf(messages: seq<Message>, me: Id, chatId: Id, isGroup: bool): (h: seq<Message>)
    ensures forall m :: m in h <==> m in messages && InChat(me, chatId, isGroup)(m)
    ensures forall m :: multiset(h)[m] == if InChat(me, chatId, isGroup)(m) then multiset(messages)[m] else 0
    ensures !isGroup ==> SortedByTime(h)
  {
    var p := InChat(me, chatId, isGroup);
    var kept := Filter(messages, p);
    forall m ensures multiset(kept)[m] == if p(m) then multiset(messages)[m] else 0 {
      FilterCount(messages, p, m);
    }
    if isGroup then kept else SortByTime(kept)
  }

  /** A group's history of a concatenated store is the history of the first
      part followed by that of the second: group history keeps storage
      order. */
  lemma GroupHistoryConcat(a: seq<Message>, b: seq<Message>, me: Id, gid: Id)
    ensures HistoryOf(a + b, me, gid, true) == HistoryOf(a, me, gid, true) + HistoryOf(b, me, gid, true)
  {
    FilterConcat(a, b, InChat(me, gid, true));
  }

  /** A single stored message is in a group's history exactly when it is a
      group message addressed to that group. */
  lemma GroupHistoryOne(m: Message, me: Id, gid: Id)
    ensures HistoryOf([m], me, gid, true) == if InGroup(m, gid) then [m] else []
  {
  }

  /** Direct-message history ties keep storage order: the messages stamped
      `t` appear in the order they were stored. */
  lemma HistoryKeepsTies(messages: seq<Message>, me: Id, peer: Id, t: nat)
    ensures Filter(HistoryOf(messages, me, peer, false), AtTime(t))
         == Filter(Filter(messages, InChat(me, peer, false)), AtTime(t))
  {
    SortStable(Filter(messages, InChat(me, peer, false)), t);
  }

  /** `get_history({ chatId, isGroup })` from `me`: one `chat_history` reply
      to the caller, the snapshot untouched. Membership of the chat is not
      checked. */
  function GetHistory(db: Snapshot, me: Id, chatId: Id, isGroup: bool): (r: Step)
    ensures r.db == db
    ensures |r.actions| == 1 && r.actions[0].Emit? && r.actions[0].dest == Caller
    ensures r.actions[0].event.ChatHistory?
    ensures r.actions[0].event.chatId == chatId && r.actions[0].event.isGroup == isGroup
    ensures forall m :: m in r.actions[0].event.messages <==> m in db.messages && InChat(me, chatId, isGroup)(m)
    ensures forall m :: multiset(r.actions[0].event.messages)[m]
                     == if InChat(me, chatId, isGroup)(m) then multiset(db.messages)[m] else 0
    ensures !isGroup ==> SortedByTime(r.actions[0].event.messages)
  {
    Step(db, [Emit(Caller, ChatHistory(chatId, HistoryOf(db.messages, me, chatId, isGroup), isGroup))])
  }

  // ---- history across handlers ----------------------------------------------

  /** A delivered direct message shows in the history of both ends. */
  lemma SentDirectMessageShows(db: Snapshot, me: Id, to: Id, content: string, kind: string, freshId: Id, now: nat)
    requires !Refused(Messaging.SendMessage(db, me, to, content, kind, false, freshId, now))
    ensures var db' := Messaging.SendMessage(db, me, to, content, kind, false, freshId, now).db;
      var m := Messaging.ComposeMessage(db.users, me, to, content, kind, false, freshId, now);
      m in HistoryOf(db'.messages, me, to, false) && m in HistoryOf(db'.messages, to, me, false)
  {
    var db' := Messaging.SendMessage(db, me, to, content, kind, false, freshId, now).db;
    assert db'.messages[|db.messages|] in db'.messages;
  }

  /** A message sent to a group is appended to the end of that group's
      history, behind everything sent before it. */
  lemma {:induction false} SentGroupMessageLast(db: Snapshot, me: Id, gid: Id, content: string, kind: string,
                                                freshId: Id, now: nat, viewer: Id)
    ensures var db' := Messaging.SendMessage(db, me, gid, content, kind, true, freshId, now).db;
      HistoryOf(db'.messages, viewer, gid, true)
        == HistoryOf(db.messages, viewer, gid, true) + [Messaging.ComposeMessage(db.users, me, gid, content, kind, true, freshId, now)]
  {
    var m := Messaging.ComposeMessage(db.users, me, gid, content, kind, true, freshId, now);
    var db' := Messaging.SendMessage(db, me, gid, content, kind, true, freshId, now).db;
    assert db'.messages == db.messages + [m];
    FilterSnoc(db.messages, m, InChat(viewer, gid, true));
  }

  /** With a clock that does not run backwards, a direct message appears at
      the end of the conversation for both ends. */
  lemma {:induction false} SentDirectMessageLast(db: Snapshot, me: Id, to: Id, content: string, kind: string,
                                                 freshId: Id, now: nat)
    requires forall k :: 0 <= k < |db.messages| ==> db.messages[k].timestamp <= now
    requires !Refused(Messaging.SendMessage(db, me, to, content, kind, false, freshId, now))
    ensures var db' := Messaging.SendMessage(db, me, to, content, kind, false, freshId, now).db;
      var m := Messaging.ComposeMessage(db.users, me, to, content, kind, false, freshId, now);
      && HistoryOf(db'.messages, me, to, false) == HistoryOf(db.messages, me, to, false) + [m]
      && HistoryOf(db'.messages, to, me, false) == HistoryOf(db.messages, to, me, false) + [m]
  {
    var m := Messaging.ComposeMessage(db.users, me, to, content, kind, false, freshId, now);
    var db' := Messaging.SendMessage(db, me, to, content, kind, false, freshId, now).db;
    assert db'.messages == db.messages + [m];
    DirectAppend(db.messages, m, me, to);
    DirectAppend(db.messages, m, to, me);
  }

  /** Appending a direct message stamped no earlier than the stored ones puts
      it last in the sorted history of its conversation. */
  lemma {:induction false} DirectAppend(ms: seq<Message>, m: Message, a: Id, b: Id)
    requires forall k :: 0 <= k < |ms| ==> ms[k].timestamp <= m.timestamp
    requires InDm(m, a, b)
    ensures HistoryOf(ms + [m], a, b, false) == HistoryOf(ms, a, b, false) + [m]
  {
    var p := InChat(a, b, false);
    FilterSnoc(ms, m, p);
    var kept := Filter(ms, p);
    assert Filter(ms + [m], p) == kept + [m];
    forall k | 0 <= k < |kept| ensures kept[k].timestamp <= m.timestamp {
      assert kept[k] in ms;
    }
    SortAppendLatest(kept, m);
  }

  /** With unique message ids, a deleted message is gone from every later
      history. */
  lemma DeletedMessageGone(db: Snapshot, me: Id, messageId: Id, chatId: Id, isGroup: bool,
                           viewer: Id, other: Id, group: bool)
    requires MessageIdsUnique(db.messages)
    requires !Refused(Messaging.DeleteMessage(db, me, messageId, chatId, isGroup))
    ensures var db' := Messaging.DeleteMessage(db, me, messageId, chatId, isGroup).db;
      forall m :: m in HistoryOf(db'.messages, viewer, other, group) ==> m.id != messageId
  {
    Messaging.DeleteTwiceFails(db, me, messageId, chatId, isGroup);
  }
}

=== FILE: messaging.dfy ===
/** The message handlers of the socket server: `send_message`, with its
    blocking check for direct messages, and `delete_message`. */
module Messaging {
  import opened Base
  import opened Model

  const ErrYouBlocked := "You have blocked this user. Unblock to send messages."
  const ErrBlockedByPeer := "You are blocked by this user."
  const ErrCannotDelete := "Cannot delete this message or message not found."
  const DeletedText := "Message permanently deleted for everyone."

  /** Only the message store may change. */
  predicate OnlyMessages(db: Snapshot, db': Snapshot) {
    db'.users == db.users && db'.friendships == db.friendships && db'.groups == db.groups
  }

  datatype Permission = Allowed | BlockedBySelf | BlockedByPeer

  /** The blocking check of a direct message from `sender` to `recipient`,
      read off the first edge between them, whatever its status. */
  function CanMessage(fs: seq<Friendship>, sender: Id, recipient: Id): (p: Permission)
    ensures p == BlockedBySelf ==>
      exists k :: 0 <= k < |fs| && Between(fs[k], sender, recipient) && fs[k].blocker == Some(sender)
    ensures p == BlockedByPeer ==>
      exists k :: 0 <= k < |fs| && Between(fs[k], sender, recipient) && fs[k].blocker == Some(recipient)
    ensures (forall k :: 0 <= k < |fs| ==> !Between(fs[k], sender, recipient) || fs[k].blocker.None?) ==> p == Allowed
  {
    match EdgeIndex(fs, sender, recipient)
    case None => Allowed
    case Some(i) =>
      match fs[i].blocker
      case None => Allowed
      case Some(b) =>
        if b == sender then BlockedBySelf
        else if b == recipient then BlockedByPeer
        else Allowed
  }

  /** With one edge per pair, a block set by either side stops direct
      messages both ways, and each side is told which one blocked. */
  lemma BlockStopsBothWays(fs: seq<Friendship>, a: Id, b: Id, k: nat)
    requires UniquePairs(fs)
    requires a != b
    requires k < |fs| && Between(fs[k], a, b) && fs[k].blocker == Some(a)
    ensures CanMessage(fs, a, b) == BlockedBySelf
    ensures CanMessage(fs, b, a) == BlockedByPeer
  {
    var i := EdgeIndex(fs, a, b).value;
    OnlyEdge(fs, a, b, i);
    var j := EdgeIndex(fs, b, a).value;
    OnlyEdge(fs, b, a, j);
  }

  /** Without a blocker on the pair's edge, messages flow both ways. */
  lemma UnblockedAllowsBothWays(fs: seq<Friendship>, a: Id, b: Id)
    requires UniquePairs(fs)
    requires forall k :: 0 <= k < |fs| && Between(fs[k], a, b) ==> fs[k].blocker.None?
    ensures CanMessage(fs, a, b) == Allowed && CanMessage(fs, b, a) == Allowed
  {
  }

  /** The message `send_message` stores: `kind == ""` stands for a missing
      type, which defaults to "text"; group messages carry the sender's
      name when the sender is a known user. */
  function ComposeMessage(users: seq<User>, me: Id, to: Id, content: string, kind: string, isGroup: bool,
                      freshId: Id, now: nat): (m: Message)
    ensures m.id == freshId && m.from == me && m.to == to && m.isGroup == isGroup
    ensures m.content == content && m.timestamp == now
    ensures m.kind == (if kind == "" then "text" else kind)
    ensures !isGroup ==> m.senderName == None
    ensures isGroup ==> m.senderName == NameOf(users, me)
  {
    Message(freshId, me, to, isGroup, content, if kind == "" then "text" else kind, now,
            if isGroup then NameOf(users, me) else None)
  }

  /** `send_message({ toUserId, content, type, isGroup })` from `me`, with
      `freshId` and `now` standing for the uuid and clock reading. */
  function SendMessage(db: Snapshot, me: Id, to: Id, content: string, kind: string, isGroup: bool,
                       freshId: Id, now: nat): (r: Step)
    ensures OnlyMessages(db, r.db)
    ensures Refused(r) <==> !isGroup && CanMessage(db.friendships, me, to) != Allowed
    ensures Refused(r) ==> r.db == db
    ensures Refused(r) ==>
      r.actions[0].event.text == (if CanMessage(db.friendships, me, to) == BlockedBySelf then ErrYouBlocked else ErrBlockedByPeer)
    ensures !Refused(r) ==>
      && |r.db.messages| == |db.messages| + 1
      && r.db.messages[..|db.messages|] == db.messages
      && r.db.messages[|db.messages|] == ComposeMessage(db.users, me, to, content, kind, isGroup, freshId, now)
    ensures !Refused(r) && isGroup ==>
      r.actions == [Emit(Room(to), NewMessage(r.db.messages[|db.messages|]))]
    ensures !Refused(r) && !isGroup ==>
      r.actions == [Emit(Room(to), NewMessage(r.db.messages[|db.messages|])),
                    Emit(Caller, MessageSent(r.db.messages[|db.messages|]))]
  {
    var perm := if isGroup then Allowed else CanMessage(db.friendships, me, to);
    if perm == BlockedBySelf then Refuse(db, ErrYouBlocked)
    else if perm == BlockedByPeer then Refuse(db, ErrBlockedByPeer)
    else
      var m := ComposeMessage(db.users, me, to, content, kind, isGroup, freshId, now);
      assert (db.messages + [m])[..|db.messages|] == db.messages;
      Step(db.(messages := db.messages + [m]),
           if isGroup then [Emit(Room(to), NewMessage(m))]
           else [Emit(Room(to), NewMessage(m)), Emit(Caller, MessageSent(m))])
  }

  /** A sent message with a fresh uuid keeps message ids unique. */
  lemma SendKeepsIdsUnique(db: Snapshot, me: Id, to: Id, content: string, kind: string, isGroup: bool,
                           freshId: Id, now: nat)
    requires MessageIdsUnique(db.messages)
    requires forall k :: 0 <= k < |db.messages| ==> db.messages[k].id != freshId
    ensures MessageIdsUnique(SendMessage(db, me, to, content, kind, isGroup, freshId, now).db.messages)
  {
    var ms' := SendMessage(db, me, to, content, kind, isGroup, freshId, now).db.messages;
    forall i, j | 0 <= i < j < |ms'| ensures ms'[i].id != ms'[j].id {
      assert ms'[i] == ms'[..|db.messages|][i];
      if j < |db.messages| {
        assert ms'[j] == ms'[..|db.messages|][j];
      }
    }
  }

  /** Sending only adds the message carrying the fresh id. */
  lemma SendAddsOnlyFresh(db: Snapshot, me: Id, to: Id, content: string, kind: string, isGroup: bool,
                          freshId: Id, now: nat)
    ensures forall m :: m in SendMessage(db, me, to, content, kind, isGroup, freshId, now).db.messages ==>
      m in db.messages || m.id == freshId
  {
    var ms' := SendMessage(db, me, to, content, kind, isGroup, freshId, now).db.messages;
    forall m | m in ms' ensures m in db.messages || m.id == freshId {
      var k :| 0 <= k < |ms'| && ms'[k] == m;
      if k < |db.messages| {
        assert m == ms'[..|db.messages|][k];
      }
    }
  }

  // ---- delete_message ------------------------------------------------------

  /** The message has this id and was sent by `me`. */
  predicate IsOwn(m: Message, messageId: Id, me: Id) {
    m.id == messageId && m.from == me
  }

  /** Who is told about a deletion besides the caller: for a group, the
      members of the group named by the client's `chatId` (nobody when there
      is no such group); for a direct message, both ends; the caller is
      filtered out either way. */
  function DeleteRecipients(db: Snapshot, me: Id, target: Message, chatId: Id, isGroup: bool): (ids: seq<Id>)
    ensures forall x :: x in ids ==> x != me
    ensures !isGroup ==> forall x :: x in ids <==> (x == target.to || x == target.from) && x != me
    ensures isGroup && GroupIndex(db.groups, chatId).None? ==> ids == []
    ensures isGroup && GroupIndex(db.groups, chatId).Some? ==>
      forall x :: x in ids <==> x != me && IsMember(db.groups[GroupIndex(db.groups, chatId).value].members, x)
  {
    var all :=
      if isGroup then
        match GroupIndex(db.groups, chatId)
        case None => []
        case Some(j) => MemberIds(db.groups[j].members)
      else [target.to, target.from];
    MemberIdsHas(if isGroup && GroupIndex(db.groups, chatId).Some? then db.groups[GroupIndex(db.groups, chatId).value].members else []);
    Filter(all, x => x != me)
  }

  lemma MemberIdsHas(ms: seq<Member>)
    ensures forall x :: x in MemberIds(ms) <==> IsMember(ms, x)
  {
    forall x | IsMember(ms, x) ensures x in MemberIds(ms) {
      var k :| 0 <= k < |ms| && ms[k].id == x;
      assert MemberIds(ms)[k] == x;
    }
  }

  function Deleted(messageId: Id, chatId: Id, isGroup: bool): Event {
    MessageDeleted(messageId, chatId, isGroup, true)
  }

  function NotifyDeleted(ids: seq<Id>, ev: Event): (r: seq<Action>)
    ensures |r| == |ids|
    ensures forall k :: 0 <= k < |ids| ==> r[k] == Emit(Room(ids[k]), ev)
    ensures forall x :: x in ids ==> Emit(Room(x), ev) in r
  {
    if |ids| == 0 then [] else [Emit(Room(ids[0]), ev)] + NotifyDeleted(ids[1..], ev)
  }

  /** The notices of a deletion: the caller's room first, then each other
      recipient, then the confirmation to the caller. */
  function DeleteNotices(me: Id, others: seq<Id>, ev: Event): (r: seq<Action>)
    requires forall x :: x in others ==> x != me
    ensures |r| >= 2
    ensures r[0] == Emit(Room(me), ev) && r[|r| - 1] == Emit(Caller, Success(DeletedText))
    ensures forall j :: 1 <= j < |r| ==> r[j].Emit? && r[j].dest != Room(me)
    ensures forall x :: x in others ==> Emit(Room(x), ev) in r
    ensures |r| == |others| + 2
    ensures forall j :: 1 <= j < |r| - 1 ==> r[j] == Emit(Room(others[j - 1]), ev)
  {
    var notices := NotifyDeleted(others, ev);
    var r := [Emit(Room(me), ev)] + notices + [Emit(Caller, Success(DeletedText))];
    assert forall j :: 1 <= j < |r| - 1 ==> r[j] == notices[j - 1] && others[j - 1] in others;
    assert forall a :: a in notices ==> a in r;
    r
  }

  /** `delete_message({ messageId, chatId, isGroup })` from `me`: removes the
      first stored message with that id sent by `me`, tells the caller's room
      and every other recipient, and confirms to the caller. */
  function DeleteMessage(db: Snapshot, me: Id, messageId: Id, chatId: Id, isGroup: bool): (r: Step)
    ensures OnlyMessages(db, r.db)
    ensures Refused(r) <==> forall k :: 0 <= k < |db.messages| ==> !IsOwn(db.messages[k], messageId, me)
    ensures Refused(r) ==> r.db == db
    ensures !Refused(r) ==>
      exists k :: 0 <= k < |db.messages| && IsOwn(db.messages[k], messageId, me) &&
        (forall j :: 0 <= j < k ==> !IsOwn(db.messages[j], messageId, me)) &&
        r.db.messages == RemoveAt(db.messages, k) &&
        multiset(r.db.messages) + multiset{db.messages[k]} == multiset(db.messages)
    ensures !Refused(r) ==>
      && |r.actions| >= 2
      && r.actions[0] == Emit(Room(me), Deleted(messageId, chatId, isGroup))
      && r.actions[|r.actions| - 1] == Emit(Caller, Success(DeletedText))
      && forall j :: 1 <= j < |r.actions| ==> r.actions[j].Emit? && r.actions[j].dest != Room(me)
  {
    match FindIndex(db.messages, m => IsOwn(m, messageId, me))
    case None => Refuse(db, ErrCannotDelete)
    case Some(i) =>
      var others := DeleteRecipients(db, me, db.messages[i], chatId, isGroup);
      var ev := Deleted(messageId, chatId, isGroup);
      Step(db.(messages := RemoveAt(db.messages, i)), DeleteNotices(me, others, ev))
  }

  /** A successful delete tells nobody but the caller and the recipients,
      and each of them only of this deletion. */
  lemma DeleteNotifiesOnly(db: Snapshot, me: Id, messageId: Id, chatId: Id, isGroup: bool, k: nat)
    requires FindIndex(db.messages, m => IsOwn(m, messageId, me)) == Some(k)
    ensures var r := DeleteMessage(db, me, messageId, chatId, isGroup);
      forall a :: a in r.actions && a.Emit? && a.dest.Room? ==>
        && a.event == Deleted(messageId, chatId, isGroup)
        && (a.dest.id == me || a.dest.id in DeleteRecipients(db, me, db.messages[k], chatId, isGroup))
  {
    var others := DeleteRecipients(db, me, db.messages[k], chatId, isGroup);
    var ev := Deleted(messageId, chatId, isGroup);
    var r := DeleteNotices(me, others, ev);
    assert DeleteMessage(db, me, messageId, chatId, isGroup).actions == r;
    forall a | a in r && a.Emit? && a.dest.Room? ensures a.event == ev && (a.dest.id == me || a.dest.id in others) {
      var j :| 0 <= j < |r| && r[j] == a;
      if 1 <= j < |r| - 1 {
        assert others[j - 1] in others;
      }
    }
  }

  /** A successful delete tells every other party: the addressee of a direct
      message, or each other member of the named group. */
  lemma DeleteNotifies(db: Snapshot, me: Id, messageId: Id, chatId: Id, isGroup: bool, k: nat)
    requires FindIndex(db.messages, m => IsOwn(m, messageId, me)) == Some(k)
    ensures var r := DeleteMessage(db, me, messageId, chatId, isGroup);
      var ev := Deleted(messageId, chatId, isGroup);
      && (!isGroup && db.messages[k].to != me ==> Emit(Room(db.messages[k].to), ev) in r.actions)
      && (isGroup ==> forall j, x :: GroupIndex(db.groups, chatId) == Some(j) && IsMember(db.groups[j].members, x) && x != me ==>
            Emit(Room(x), ev) in r.actions)
  {
    var ev := Deleted(messageId, chatId, isGroup);
    var others := DeleteRecipients(db, me, db.messages[k], chatId, isGroup);
    assert DeleteMessage(db, me, messageId, chatId, isGroup).actions == DeleteNotices(me, others, ev);
  }

  /** With unique message ids, deleting the same message again fails. */
  lemma DeleteTwiceFails(db: Snapshot, me: Id, messageId: Id, chatId: Id, isGroup: bool)
    requires MessageIdsUnique(db.messages)
    requires !Refused(DeleteMessage(db, me, messageId, chatId, isGroup))
    ensures var db' := DeleteMessage(db, me, messageId, chatId, isGroup).db;
      && (forall k :: 0 <= k < |db'.messages| ==> db'.messages[k].id != messageId)
      && Refused(DeleteMessage(db', me, messageId, chatId, isGroup))
  {
    var ms := db.messages;
    var i := FindIndex(ms, m => IsOwn(m, messageId, me)).value;
    var ms' := RemoveAt(ms, i);
    forall k | 0 <= k < |ms'| ensures ms'[k].id != messageId {
      if k < i {
        assert ms'[k] == ms[k];
      } else {
        assert ms'[k] == ms[k + 1];
      }
    }
  }

  /** Deleting never adds a message. */
  lemma DeleteAddsNothing(db: Snapshot, me: Id, messageId: Id, chatId: Id, isGroup: bool)
    ensures forall m :: m in DeleteMessage(db, me, messageId, chatId, isGroup).db.messages ==> m in db.messages
  {
    var ms' := DeleteMessage(db, me, messageId, chatId, isGroup).db.messages;
    forall m | m in ms' ensures m in db.messages {
      assert multiset(ms')[m] > 0;
    }
  }

  /** Removing a message keeps message ids unique. */
  lemma DeleteKeepsIdsUnique(db: Snapshot, me: Id, messageId: Id, chatId: Id, isGroup: bool)
    requires MessageIdsUnique(db.messages)
    ensures MessageIdsUnique(DeleteMessage(db, me, messageId, chatId, isGroup).db.messages)
  {
    match FindIndex(db.messages, m => IsOwn(m, messageId, me))
    case None =>
    case Some(i) =>
      var ms := db.messages;
      var ms' := RemoveAt(ms, i);
      forall a, b | 0 <= a < b < |ms'| ensures ms'[a].id != ms'[b].id {
        var a' := if a < i then a else a + 1;
        var b' := if b < i then b else b + 1;
        assert ms'[a] == ms[a'] && ms'[b] == ms[b'];
      }
  }
}

=== FILE: model.dfy ===
/** The application snapshot the socket handlers read and rewrite (users,
    messages, friendships, groups), the events the server emits, and the
    invariants the handlers keep. */
module Model {
  import opened Base

  /** User, friendship, group and message identities (uuids in the server). */
  type Id = string

  /** A registered user; the stored password is not part of this model. */
  datatype User = User(id: Id, username: string, avatar: string)

  datatype Status = Pending | Accepted

  /** A friendship edge from requester to recipient; `blocker` is the
      server's `blockerId`, absent when nobody blocks. */
  datatype Friendship = Friendship(id: Id, from: Id, to: Id, status: Status, blocker: Option<Id>)

  /** A group member together with the display name copied at join time. */
  datatype Member = Member(id: Id, name: string)

  datatype Group = Group(id: Id, name: string, avatar: string, creator: Id, members: seq<Member>, admins: seq<Id>)

  /** A stored message; `to` is a user id for a direct message and a group id
      for a group message, `kind` is the server's `type` field, and
      `senderName` is attached to group messages only. */
  datatype Message = Message(
    id: Id, from: Id, to: Id, isGroup: bool, content: string, kind: string,
    timestamp: nat, senderName: Option<string>)

  datatype Snapshot = Snapshot(users: seq<User>, messages: seq<Message>, friendships: seq<Friendship>, groups: seq<Group>)

  /** A pending request as listed in `init_data`. */
  datatype Request = Request(id: Id, from: Id, fromName: Option<string>)

  /** A friend as listed in `init_data`: the friend's record, presence, and
      the edge's blocking state. */
  datatype FriendView = FriendView(user: User, online: bool, isBlocked: bool, blocker: Option<Id>)

  /** The outbound socket events of the server. */
  datatype Event =
    | InitData(currentUser: Option<User>, requests: seq<Request>, friends: seq<FriendView>, groups: seq<Group>)
    | RefreshData
    | ChatHistory(chatId: Id, messages: seq<Message>, isGroup: bool)
    | NewMessage(msg: Message)
    | MessageSent(msg: Message)
    | MessageDeleted(messageId: Id, chatId: Id, isGroup: bool, permanent: bool)
    | Success(text: string)
    | Error(text: string)

  /** `Caller` is `socket.emit` (the calling connection only); `Room(id)` is
      `io.to(id)` (every connection joined to the user's or group's room). */
  datatype Dest = Caller | Room(id: Id)

  /** What a handler does besides rewriting the snapshot: emit an event, or
      subscribe a live user's connection to a room. */
  datatype Action = Emit(dest: Dest, event: Event) | Join(user: Id, room: Id)

  /** The result of one handler: the snapshot it leaves and its actions. */
  datatype Step = Step(db: Snapshot, actions: seq<Action>)

  /** The handler emitted exactly one `error` to its caller. */
  predicate Refused(r: Step) {
    && |r.actions| == 1
    && r.actions[0].Emit? && r.actions[0].dest == Caller && r.actions[0].event.Error?
  }

  /** Abort with one `error` event, the snapshot untouched. */
  function Refuse(db: Snapshot, text: string): (r: Step)
    ensures Refused(r) && r.db == db
  {
    Step(db, [Emit(Caller, Error(text))])
  }

  // ---- lookups -------------------------------------------------------------

  predicate HasId(u: User, id: Id) { u.id == id }

  predicate HasName(u: User, name: string) { u.username == name }

  /** The first stored user whose id is `id`. */
  function UserById(users: seq<User>, id: Id): (r: Option<User>)
    ensures r.Some? ==> r.value in users && r.value.id == id
    ensures r.None? <==> forall u :: u in users ==> u.id != id
  {
    match FindIndex(users, u => HasId(u, id))
    case None => None
    case Some(i) => Some(users[i])
  }

  /** The first stored user whose username is exactly `name`, case
      included. */
  function UserByName(users: seq<User>, name: string): (r: Option<User>)
    ensures r.Some? ==> r.value in users && r.value.username == name
    ensures r.None? <==> forall u :: u in users ==> u.username != name
  {
    match FindIndex(users, u => HasName(u, name))
    case None => None
    case Some(i) => Some(users[i])
  }

  /** The display name of a user, absent when the id is unknown. */
  function NameOf(users: seq<User>, id: Id): Option<string> {
    match UserById(users, id)
    case None => None
    case Some(u) => Some(u.username)
  }

  /** Some user has this id. */
  predicate IsUser(users: seq<User>, id: Id) {
    UserById(users, id).Some?
  }

  /** The edge joins `a` and `b`, in either direction. */
  predicate Between(f: Friendship, a: Id, b: Id) {
    (f.from == a && f.to == b) || (f.from == b && f.to == a)
  }

  /** The first edge between `a` and `b`. */
  function EdgeIndex(fs: seq<Friendship>, a: Id, b: Id): (r: Option<nat>)
    ensures r.Some? ==> r.value < |fs| && Between(fs[r.value], a, b)
    ensures r.None? <==> forall j :: 0 <= j < |fs| ==> !Between(fs[j], a, b)
  {
    FindIndex(fs, f => Between(f, a, b))
  }

  function MemberIds(ms: seq<Member>): (r: seq<Id>)
    ensures |r| == |ms|
    ensures forall k :: 0 <= k < |ms| ==> r[k] == ms[k].id
  {
    if |ms| == 0 then [] else [ms[0].id] + MemberIds(ms[1..])
  }

  predicate IsMember(ms: seq<Member>, id: Id) {
    exists k :: 0 <= k < |ms| && ms[k].id == id
  }

  /** No user is listed twice. */
  ghost predicate DistinctMembers(ms: seq<Member>) {
    forall i, j :: 0 <= i < j < |ms| ==> ms[i].id != ms[j].id
  }

  predicate HasGroupId(g: Group, id: Id) { g.id == id }

  /** The position of the first stored group whose id is `id`. */
  function GroupIndex(groups: seq<Group>, id: Id): (r: Option<nat>)
    ensures r.Some? ==> r.value < |groups| && groups[r.value].id == id
    ensures r.None? <==> forall j :: 0 <= j < |groups| ==> groups[j].id != id
  {
    FindIndex(groups, g => HasGroupId(g, id))
  }

  // ---- invariants ----------------------------------------------------------

  /** At most one edge per unordered pair of users. */
  ghost predicate UniquePairs(fs: seq<Friendship>) {
    forall i, j :: 0 <= i < j < |fs| ==> !Between(fs[j], fs[i].from, fs[i].to)
  }

  ghost predicate NoSelfEdges(fs: seq<Friendship>) {
    forall k :: 0 <= k < |fs| ==> fs[k].from != fs[k].to
  }

  /** A group as the server builds it: duplicate-free members, at least two
      of them, and the creator among the admins. */
  ghost predicate GroupOk(g: Group) {
    DistinctMembers(g.members) && |g.members| >= 2 && g.creator in g.admins
  }

  ghost predicate MessageIdsUnique(ms: seq<Message>) {
    forall i, j :: 0 <= i < j < |ms| ==> ms[i].id != ms[j].id
  }

  ghost predicate Invariant(db: Snapshot) {
    && UniquePairs(db.friendships)
    && NoSelfEdges(db.friendships)
    && (forall k :: 0 <= k < |db.groups| ==> GroupOk(db.groups[k]))
    && MessageIdsUnique(db.messages)
  }

  /** Under `UniquePairs`, the first edge of a pair is its only edge. */
  lemma OnlyEdge(fs: seq<Friendship>, a: Id, b: Id, i: nat)
    requires UniquePairs(fs)
    requires EdgeIndex(fs, a, b) == Some(i)
    ensures forall j :: 0 <= j < |fs| && j != i ==> !Between(fs[j], a, b)
  {
    forall j | 0 <= j < |fs| && j != i
      ensures !Between(fs[j], a, b)
    {
      if j > i {
        assert !Between(fs[j], fs[i].from, fs[i].to);
      }
    }
  }
}

=== FILE: projection.dfy ===
/** What a user sees of the snapshot: `sendInitialData` (the `init_data`
    payload), the connection handler that subscribes a socket to its rooms,
    and the `/api/search_users` autocomplete filter. */
module Projection {
  import opened Base
  import opened Model
  import Groups
  import Friendships

  // ---- init_data -------------------------------------------------------------

  /** A pending request addressed to `me`. */
  predicate IsPendingFor(f: Friendship, me: Id) {
    f.to == me && f.status == Pending
  }

  /** The listing of a request: its id, its sender, and the sender's name
      when the sender is a known user. */
  function AsRequest(f: Friendship, users: seq<User>): Request {
    Request(f.id, f.from, NameOf(users, f.from))
  }

  function PendingFn(me: Id): Friendship -> bool {
    (f: Friendship) => IsPendingFor(f, me)
  }

  /** The listings of the given edges, in order. */
  function AsRequests(es: seq<Friendship>, users: seq<User>): (r: seq<Request>)
    ensures |r| == |es|
    ensures forall k :: 0 <= k < |es| ==> r[k] == AsRequest(es[k], users)
  {
    if |es| == 0 then [] else [AsRequest(es[0], users)] + AsRequests(es[1..], users)
  }

  /** The requests listed for `me`, in edge order: one listing for each
      pending edge addressed to `me`. */
  function Requests(fs: seq<Friendship>, users: seq<User>, me: Id): (r: seq<Request>)
    ensures |r| <= |fs|
    ensures |r| == |Filter(fs, PendingFn(me))|
    ensures forall k :: 0 <= k < |r| ==> r[k] == AsRequest(Filter(fs, PendingFn(me))[k], users)
    ensures forall k :: 0 <= k < |fs| && IsPendingFor(fs[k], me) ==> AsRequest(fs[k], users) in r
    ensures forall q :: q in r ==> exists k :: 0 <= k < |fs| && IsPendingFor(fs[k], me) && q == AsRequest(fs[k], users)
  {
    var es := Filter(fs, PendingFn(me));
    RequestsCover(es, fs, users, me);
    RequestsSound(es, fs, users, me);
    AsRequests(es, users)
  }

  lemma RequestsCover(es: seq<Friendship>, fs: seq<Friendship>, users: seq<User>, me: Id)
    requires es == Filter(fs, PendingFn(me))
    ensures forall k :: 0 <= k < |fs| && IsPendingFor(fs[k], me) ==> AsRequest(fs[k], users) in AsRequests(es, users)
  {
    var r := AsRequests(es, users);
    forall k | 0 <= k < |fs| && IsPendingFor(fs[k], me) ensures AsRequest(fs[k], users) in r {
      assert PendingFn(me)(fs[k]) && fs[k] in fs;
      var i :| 0 <= i < |es| && es[i] == fs[k];
      assert r[i] == AsRequest(fs[k], users);
    }
  }

  lemma RequestsSound(es: seq<Friendship>, fs: seq<Friendship>, users: seq<User>, me: Id)
    requires es == Filter(fs, PendingFn(me))
    ensures forall q :: q in AsRequests(es, users) ==>
      exists k :: 0 <= k < |fs| && IsPendingFor(fs[k], me) && q == AsRequest(fs[k], users)
  {
    var r := AsRequests(es, users);
    forall q | q in r ensures exists k :: 0 <= k < |fs| && IsPendingFor(fs[k], me) && q == AsRequest(fs[k], users) {
      var i :| 0 <= i < |r| && r[i] == q;
      assert PendingFn(me)(es[i]) && es[i] in fs;
      var k :| 0 <= k < |fs| && fs[k] == es[i];
    }
  }

  /** An accepted edge with `me` at one end. */
  predicate IsFriendEdge(f: Friendship, me: Id) {
    (f.from == me || f.to == me) && f.status == Accepted
  }

  /** The end of the edge that is not `me`. */
  function Other(f: Friendship, me: Id): Id {
    if f.from == me then f.to else f.from
  }

  /** The listing of a friend: the user record, presence, whether either end
      blocks, and the blocker itself. */
  function AsFriend(f: Friendship, u: User, me: Id, online: set<Id>): (v: FriendView)
    ensures v.user == u && v.blocker == f.blocker
    ensures v.online <==> Other(f, me) in online
    ensures v.isBlocked <==> f.blocker == Some(me) || f.blocker == Some(Other(f, me))
  {
    FriendView(u, Other(f, me) in online, f.blocker == Some(me) || f.blocker == Some(Other(f, me)), f.blocker)
  }

  /** The edge is listed among the friends of `me`: accepted, and its other
      end names a user. */
  predicate Listed(f: Friendship, users: seq<User>, me: Id) {
    IsFriendEdge(f, me) && IsUser(users, Other(f, me))
  }

  /** The friend listing of a listed edge. */
  function FriendOf(f: Friendship, users: seq<User>, me: Id, online: set<Id>): FriendView
    requires IsUser(users, Other(f, me))
  {
    AsFriend(f, UserById(users, Other(f, me)).value, me, online)
  }

  /** The listings of edges already known to be listed, in order. */
  function Views(es: seq<Friendship>, users: seq<User>, me: Id, online: set<Id>): (r: seq<FriendView>)
    requires forall k :: 0 <= k < |es| ==> IsUser(users, Other(es[k], me))
    ensures |r| == |es|
    ensures forall k :: 0 <= k < |es| ==> r[k] == FriendOf(es[k], users, me, online)
  {
    if |es| == 0 then [] else [FriendOf(es[0], users, me, online)] + Views(es[1..], users, me, online)
  }

  function ListedFn(users: seq<User>, me: Id): Friendship -> bool {
    (f: Friendship) => Listed(f, users, me)
  }

  /** The friends listed for `me`, in edge order; an edge whose other end
      names no user is skipped. */
  function Friends(fs: seq<Friendship>, users: seq<User>, me: Id, online: set<Id>): (r: seq<FriendView>)
    ensures |r| <= |fs|
    ensures |r| == |Filter(fs, ListedFn(users, me))|
    ensures forall k :: 0 <= k < |r| ==>
      && Listed(Filter(fs, ListedFn(users, me))[k], users, me)
      && r[k] == FriendOf(Filter(fs, ListedFn(users, me))[k], users, me, online)
    ensures forall f :: f in fs && Listed(f, users, me) ==> FriendOf(f, users, me, online) in r
    ensures forall v :: v in r ==> exists f :: f in fs && Listed(f, users, me) && v == FriendOf(f, users, me, online)
  {
    var es := Filter(fs, ListedFn(users, me));
    ListedAll(es, fs, users, me);
    ViewsCover(es, fs, users, me, online);
    ViewsSound(es, fs, users, me, online);
    Views(es, users, me, online)
  }

  lemma ListedAll(es: seq<Friendship>, fs: seq<Friendship>, users: seq<User>, me: Id)
    requires es == Filter(fs, ListedFn(users, me))
    ensures forall k :: 0 <= k < |es| ==> IsUser(users, Other(es[k], me))
  {
    forall k | 0 <= k < |es| ensures IsUser(users, Other(es[k], me)) {
      assert ListedFn(users, me)(es[k]);
    }
  }

  lemma ViewsCover(es: seq<Friendship>, fs: seq<Friendship>, users: seq<User>, me: Id, online: set<Id>)
    requires es == Filter(fs, ListedFn(users, me))
    requires forall k :: 0 <= k < |es| ==> IsUser(users, Other(es[k], me))
    ensures forall f :: f in fs && Listed(f, users, me) ==> FriendOf(f, users, me, online) in Views(es, users, me, online)
  {
    var r := Views(es, users, me, online);
    forall f | f in fs && Listed(f, users, me) ensures FriendOf(f, users, me, online) in r {
      assert ListedFn(users, me)(f);
      assert f in es;
      var k :| 0 <= k < |es| && es[k] == f;
      assert r[k] == FriendOf(f, users, me, online);
    }
  }

  lemma ViewsSound(es: seq<Friendship>, fs: seq<Friendship>, users: seq<User>, me: Id, online: set<Id>)
    requires es == Filter(fs, ListedFn(users, me))
    requires forall k :: 0 <= k < |es| ==> IsUser(users, Other(es[k], me))
    ensures forall v :: v in Views(es, users, me, online) ==>
      exists f :: f in fs && Listed(f, users, me) && v == FriendOf(f, users, me, online)
  {
    var r := Views(es, users, me, online);
    forall v | v in r ensures exists f :: f in fs && Listed(f, users, me) && v == FriendOf(f, users, me, online) {
      var k :| 0 <= k < |r| && r[k] == v;
      assert es[k] in es;
    }
  }

  /** Every listed friend is a known user other than the end `me` of some
      accepted edge, shown online exactly when connected, and shown blocked
      exactly when one of the two ends set the block. */
  lemma FriendsAreFaithful(fs: seq<Friendship>, users: seq<User>, me: Id, online: set<Id>)
    requires NoSelfEdges(fs)
    ensures forall v :: v in Friends(fs, users, me, online) ==>
      && v.user in users && v.user.id != me
      && (v.online <==> v.user.id in online)
      && (v.isBlocked <==> v.blocker == Some(me) || v.blocker == Some(v.user.id))
  {
    forall v | v in Friends(fs, users, me, online)
      ensures v.user in users && v.user.id != me
      ensures v.online <==> v.user.id in online
      ensures v.isBlocked <==> v.blocker == Some(me) || v.blocker == Some(v.user.id)
    {
      var f :| f in fs && Listed(f, users, me) && v == FriendOf(f, users, me, online);
    }
  }

  /** The `init_data` payload for `me`: the caller's own record, the pending
      requests addressed to `me`, the accepted friends, and the groups `me`
      belongs to. */
  function InitialData(db: Snapshot, me: Id, online: set<Id>): (e: Event)
    ensures e.InitData?
    ensures e.currentUser.Some? <==> IsUser(db.users, me)
    ensures e.currentUser.Some? ==> e.currentUser.value in db.users && e.currentUser.value.id == me
    ensures forall g :: g in e.groups <==> g in db.groups && IsMember(g.members, me)
    ensures forall g :: multiset(e.groups)[g] == if IsMember(g.members, me) then multiset(db.groups)[g] else 0
    ensures |e.requests| == |Filter(db.friendships, PendingFn(me))|
    ensures |e.friends| == |Filter(db.friendships, ListedFn(db.users, me))|
    ensures forall k :: 0 <= k < |db.friendships| && IsPendingFor(db.friendships[k], me) ==>
      AsRequest(db.friendships[k], db.users) in e.requests
    ensures forall q :: q in e.requests ==>
      exists k :: 0 <= k < |db.friendships| && IsPendingFor(db.friendships[k], me) && q == AsRequest(db.friendships[k], db.users)
    ensures forall f :: f in db.friendships && Listed(f, db.users, me) ==> FriendOf(f, db.users, me, online) in e.friends
    ensures forall v :: v in e.friends ==>
      exists f :: f in db.friendships && Listed(f, db.users, me) && v == FriendOf(f, db.users, me, online)
  {
    InitData(UserById(db.users, me),
             Requests(db.friendships, db.users, me),
             Friends(db.friendships, db.users, me, online),
             Groups.MyGroups(db.groups, me))
  }

  // ---- connection --------------------------------------------------------------

  datatype Connected = Connected(online: set<Id>, actions: seq<Action>)

  /** A subscription of `me` to each group's room. */
  function GroupJoins(gs: seq<Group>, me: Id): (r: seq<Action>)
    ensures |r| == |gs|
    ensures forall k :: 0 <= k < |gs| ==> r[k] == Join(me, gs[k].id)
    ensures forall g :: g in gs ==> Join(me, g.id) in r
    ensures forall a :: a in r ==> a.Join? && a.user == me && exists g :: g in gs && g.id == a.room
  {
    if |gs| == 0 then [] else [Join(me, gs[0].id)] + GroupJoins(gs[1..], me)
  }

  /** A `refresh_data` to the other end of each accepted edge of `me`. */
  function FriendRefreshes(fs: seq<Friendship>, me: Id): (r: seq<Action>)
    ensures forall k :: 0 <= k < |fs| && IsFriendEdge(fs[k], me) ==> Emit(Room(Other(fs[k], me)), RefreshData) in r
    ensures forall a :: a in r ==> a.Emit? && a.event == RefreshData && a.dest.Room?
    ensures forall a :: a in r ==> exists k :: 0 <= k < |fs| && IsFriendEdge(fs[k], me) && a.dest.id == Other(fs[k], me)
  {
    if |fs| == 0 then []
    else
      var rest := FriendRefreshes(fs[1..], me);
      assert forall a :: a in rest ==> exists k :: 1 <= k < |fs| && IsFriendEdge(fs[k], me) && a.dest.id == Other(fs[k], me) by {
        forall a | a in rest ensures exists k :: 1 <= k < |fs| && IsFriendEdge(fs[k], me) && a.dest.id == Other(fs[k], me) {
          var k :| 0 <= k < |fs[1..]| && IsFriendEdge(fs[1..][k], me) && a.dest.id == Other(fs[1..][k], me);
          assert fs[1..][k] == fs[k + 1];
        }
      }
      assert forall k :: 1 <= k < |fs| ==> fs[k] == fs[1..][k - 1];
      (if IsFriendEdge(fs[0], me) then [Emit(Room(Other(fs[0], me)), RefreshData)] else []) + rest
  }

  /** The actions of a connection around the greeting `greet`: join the
      user's own room, then the room of each of the user's groups, then
      `greet`, then a refresh to every accepted friend. */
  function ConnectActions(db: Snapshot, me: Id, greet: Action): (acts: seq<Action>)
    requires greet.Emit? && greet.dest == Caller
    ensures |acts| >= 2 && acts[0] == Join(me, me) && greet in acts
    ensures forall g :: g in db.groups && IsMember(g.members, me) ==> Join(me, g.id) in acts
    ensures forall u, room :: Join(u, room) in acts ==>
      u == me && (room == me || exists g :: g in db.groups && IsMember(g.members, me) && g.id == room)
    ensures forall k :: 0 <= k < |db.friendships| && IsFriendEdge(db.friendships[k], me) ==>
      Emit(Room(Other(db.friendships[k], me)), RefreshData) in acts
    ensures forall a :: a in acts && a.Emit? && a.dest != Caller ==>
      && a.event == RefreshData && a.dest.Room?
      && exists k :: 0 <= k < |db.friendships| && IsFriendEdge(db.friendships[k], me) && a.dest.id == Other(db.friendships[k], me)
  {
    var joins := GroupJoins(Groups.MyGroups(db.groups, me), me);
    var refreshes := FriendRefreshes(db.friendships, me);
    var acts := [Join(me, me)] + joins + [greet] + refreshes;
    assert forall a :: a in acts <==> a == Join(me, me) || a in joins || a == greet || a in refreshes;
    acts
  }

  /** A connection authenticated as `me`: `me` becomes online, the socket
      joins the user's own room and every room of a group `me` belongs to,
      the caller receives `init_data` (already counting `me` as online), and
      every accepted friend is told to refresh. */
  function Connect(db: Snapshot, me: Id, online: set<Id>): (c: Connected)
    ensures c.online == online + {me}
    ensures |c.actions| >= 2 && c.actions[0] == Join(me, me)
    ensures Emit(Caller, InitialData(db, me, c.online)) in c.actions
    ensures forall g :: g in db.groups && IsMember(g.members, me) ==> Join(me, g.id) in c.actions
    ensures forall u, room :: Join(u, room) in c.actions ==>
      u == me && (room == me || exists g :: g in db.groups && IsMember(g.members, me) && g.id == room)
    ensures forall k :: 0 <= k < |db.friendships| && IsFriendEdge(db.friendships[k], me) ==>
      Emit(Room(Other(db.friendships[k], me)), RefreshData) in c.actions
    ensures forall a :: a in c.actions && a.Emit? && a.dest != Caller ==>
      && a.event == RefreshData && a.dest.Room?
      && exists k :: 0 <= k < |db.friendships| && IsFriendEdge(db.friendships[k], me) && a.dest.id == Other(db.friendships[k], me)
  {
    var online' := online + {me};
    Connected(online', ConnectActions(db, me, Emit(Caller, InitialData(db, me, online'))))
  }

  // ---- /api/search_users ---------------------------------------------------------

  /** `String.prototype.toLowerCase` on the ASCII letters. */
  function LowerChar(c: char): char {
    if 'A' <= c <= 'Z' then (c as int + 32) as char else c
  }

  function Lower(s: string): (r: string)
    ensures |r| == |s|
    ensures forall k :: 0 <= k < |s| ==> r[k] == LowerChar(s[k])
  {
    if |s| == 0 then [] else [LowerChar(s[0])] + Lower(s[1..])
  }

  /** A character outside the Basic Multilingual Plane, which a JavaScript
      string stores as a surrogate pair. */
  function IsAstralFn(): char -> bool {
    (c: char) => (c as int) >= 0x1_0000
  }

  /** The `length` of a JavaScript string: UTF-16 code units, two for each
      character outside the Basic Multilingual Plane. */
  function Utf16Length(s: string): (n: nat)
    ensures |s| <= n <= 2 * |s|
    ensures (forall k :: 0 <= k < |s| ==> (s[k] as int) < 0x1_0000) ==> n == |s|
    ensures n == |s| + |Filter(s, IsAstralFn())|
  {
    if |s| == 0 then 0 else (if (s[0] as int) < 0x1_0000 then 1 else 2) + Utf16Length(s[1..])
  }

  /** A user the autocomplete may offer: not the caller, and the username
      starts with the query, ignoring case. */
  predicate Matches(u: User, me: Id, query: string) {
    u.id != me && Lower(query) <= Lower(u.username)
  }

  /** `GET /api/search_users?query=...` for the logged-in `me`: nothing for a
      query shorter than two UTF-16 code units, otherwise the first ten
      matching users in storage order (the password is never part of a
      `User` here). */
  function SearchUsers(users: seq<User>, me: Id, query: string): (r: seq<User>)
    ensures Utf16Length(query) < 2 ==> r == []
    ensures |r| <= 10
    ensures forall u :: u in r ==> u in users && Matches(u, me, query)
    ensures Utf16Length(query) >= 2 ==> r <= Filter(users, (u: User) => Matches(u, me, query))
    ensures Utf16Length(query) >= 2 ==>
      var n := |Filter(users, (u: User) => Matches(u, me, query))|;
      |r| == if n < 10 then n else 10
  {
    if Utf16Length(query) < 2 then []
    else
      var hits := Filter(users, (u: User) => Matches(u, me, query));
      hits[..if |hits| < 10 then |hits| else 10]
  }

  /** When at most ten users match a long enough query, the autocomplete
      offers all of them. */
  lemma SearchFindsAllWhenFew(users: seq<User>, me: Id, query: string, u: User)
    requires |Filter(users, (v: User) => Matches(v, me, query))| <= 10
    requires u in users && Matches(u, me, query)
    ensures Utf16Length(query) >= 2 ==> u in SearchUsers(users, me, query)
  {
  }

  // ---- views across handlers -------------------------------------------------------

  /** A new friend request shows in the recipient's `init_data`. */
  lemma RequestShowsForRecipient(db: Snapshot, me: Id, username: string, freshId: Id, t: User, online: set<Id>)
    requires UserByName(db.users, username) == Some(t)
    requires UniquePairs(db.friendships)
    requires t.id != me
    requires forall k :: 0 <= k < |db.friendships| ==> !Between(db.friendships[k], me, t.id)
    ensures var db' := Friendships.FriendRequest(db, me, username, freshId).db;
      Request(freshId, me, NameOf(db.users, me)) in InitialData(db', t.id, online).requests
  {
    Friendships.FriendRequestOutcome(db, me, username, freshId, t);
    var fs' := Friendships.FriendRequest(db, me, username, freshId).db.friendships;
    assert IsPendingFor(fs'[|db.friendships|], t.id);
  }

  /** After `accept_request`, the caller's `init_data` lists the requester as
      a friend, provided the requester is a known user. */
  lemma AcceptedShowsFriend(db: Snapshot, me: Id, requestId: Id, online: set<Id>, k: nat)
    requires FindIndex(db.friendships, f => Friendships.IsIncoming(f, requestId, me)) == Some(k)
    requires IsUser(db.users, db.friendships[k].from)
    ensures var db' := Friendships.AcceptRequest(db, me, requestId).db;
      exists v :: v in InitialData(db', me, online).friends && v.user.id == db.friendships[k].from
  {
    var fs' := Friendships.AcceptRequest(db, me, requestId).db.friendships;
    assert Listed(fs'[k], db.users, me) && fs'[k] in fs';
    var v := FriendOf(fs'[k], db.users, me, online);
    assert v in InitialData(Friendships.AcceptRequest(db, me, requestId).db, me, online).friends;
  }

  /** When the caller and every named id are users and someone besides the
      caller is named, each member's `init_data` after `create_group` lists the
      new group. */
  lemma CreatedGroupShowsForMembers(db: Snapshot, me: Id, name: string, memberIds: seq<Id>, avatar: string,
                                    freshId: Id, online: set<Id>, x: Id, online': set<Id>)
    requires IsUser(db.users, me) && forall y :: y in memberIds ==> IsUser(db.users, y)
    requires exists y :: y in memberIds && y != me
    requires x in memberIds || x == me
    ensures var db' := Groups.CreateGroup(db, me, name, memberIds, avatar, freshId, online).db;
      exists g :: g in InitialData(db', x, online').groups && g.id == freshId
  {
    var db' := Groups.CreateGroup(db, me, name, memberIds, avatar, freshId, online).db;
    var g := db'.groups[|db.groups|];
    assert g in db'.groups;
    assert g in InitialData(db', x, online').groups;
  }
}

=== FILE: router.dfy ===
/** The socket event dispatcher: each client event of an authenticated
    connection becomes one call of the matching handler on the current
    snapshot. Every handler keeps the snapshot invariant, and so does any
    run of them. */
module Router {
  import opened Base
  import opened Model
  import Friendships
  import Groups
  import Messaging
  import History
  import Projection

  /** The client events the server listens for after connecting, with their
      payloads. */
  datatype Intent =
    | FriendRequest(username: string)
    | AcceptRequest(requestId: Id)
    | DeclineRequest(requestId: Id)
    | RemoveFriend(friendId: Id)
    | BlockUser(targetId: Id)
    | CreateGroup(name: string, memberIds: seq<Id>, avatar: string)
    | AddMembers(groupId: Id, userIds: seq<Id>)
    | SendMessage(to: Id, content: string, kind: string, isGroup: bool)
    | DeleteMessage(messageId: Id, chatId: Id, isGroup: bool)
    | GetHistory(chatId: Id, isGroup: bool)
    | Refresh

  /** Runs the handler for `intent` from user `me`; `freshId` and `now` are
      the uuid and clock reading a handler may use, `online` the connected
      users. Users are never touched, and each handler touches only its own
      collection. */
  function Handle(db: Snapshot, me: Id, intent: Intent, freshId: Id, now: nat, online: set<Id>): (r: Step)
    ensures r.db.users == db.users
    ensures Refused(r) ==> r.db == db
    ensures IsFriendshipIntent(intent) ==> Friendships.OnlyFriendships(db, r.db)
    ensures (intent.CreateGroup? || intent.AddMembers?) ==> Groups.OnlyGroups(db, r.db)
    ensures (intent.SendMessage? || intent.DeleteMessage?) ==> Messaging.OnlyMessages(db, r.db)
    ensures (intent.GetHistory? || intent.Refresh?) ==> r.db == db && |r.actions| == 1 && r.actions[0].Emit? && r.actions[0].dest == Caller
  {
    if IsFriendshipIntent(intent) then HandleFriendship(db, me, intent, freshId)
    else if intent.CreateGroup? || intent.AddMembers? then HandleGroup(db, me, intent, freshId, online)
    else if intent.SendMessage? || intent.DeleteMessage? then HandleMessage(db, me, intent, freshId, now)
    else HandleRead(db, me, intent, online)
  }

  /** The read-only handlers: one reply to the caller, nothing stored. */
  function HandleRead(db: Snapshot, me: Id, intent: Intent, online: set<Id>): (r: Step)
    requires intent.GetHistory? || intent.Refresh?
    ensures r.db == db
    ensures |r.actions| == 1 && r.actions[0].Emit? && r.actions[0].dest == Caller
  {
    match intent
    case GetHistory(chatId, isGroup) => History.GetHistory(db, me, chatId, isGroup)
    case Refresh => Step(db, [Emit(Caller, Projection.InitialData(db, me, online))])
  }

  /** The friendship handlers: only the friendship list changes. */
  function HandleFriendship(db: Snapshot, me: Id, intent: Intent, freshId: Id): (r: Step)
    requires IsFriendshipIntent(intent)
    ensures Refused(r) ==> r.db == db
    ensures Friendships.OnlyFriendships(db, r.db)
  {
    match intent
    case FriendRequest(username) => Friendships.FriendRequest(db, me, username, freshId)
    case AcceptRequest(id) => Friendships.AcceptRequest(db, me, id)
    case DeclineRequest(id) => Friendships.DeclineRequest(db, me, id)
    case RemoveFriend(id) => Friendships.RemoveFriend(db, me, id)
    case BlockUser(id) => Friendships.BlockUser(db, me, id)
  }

  /** The message handlers: only the message store changes. */
  function HandleMessage(db: Snapshot, me: Id, intent: Intent, freshId: Id, now: nat): (r: Step)
    requires intent.SendMessage? || intent.DeleteMessage?
    ensures Refused(r) ==> r.db == db
    ensures Messaging.OnlyMessages(db, r.db)
  {
    match intent
    case SendMessage(to, content, kind, isGroup) => Messaging.SendMessage(db, me, to, content, kind, isGroup, freshId, now)
    case DeleteMessage(id, chatId, isGroup) => Messaging.DeleteMessage(db, me, id, chatId, isGroup)
  }

  /** The group handlers: only the group list changes. */
  function HandleGroup(db: Snapshot, me: Id, intent: Intent, freshId: Id, online: set<Id>): (r: Step)
    requires intent.CreateGroup? || intent.AddMembers?
    ensures Refused(r) ==> r.db == db
    ensures Groups.OnlyGroups(db, r.db)
  {
    match intent
    case CreateGroup(name, ids, avatar) => Groups.CreateGroup(db, me, name, ids, avatar, freshId, online)
    case AddMembers(gid, ids) => Groups.AddMembers(db, me, gid, ids, online)
  }

  /** Every stored message either was there before or carries the handler's
      fresh id. */
  lemma HandleMessagesFromBeforeOrFresh(db: Snapshot, me: Id, intent: Intent, freshId: Id, now: nat, online: set<Id>)
    ensures forall m :: m in Handle(db, me, intent, freshId, now, online).db.messages ==> m in db.messages || m.id == freshId
  {
    match intent
    case SendMessage(to, content, kind, isGroup) =>
      Messaging.SendAddsOnlyFresh(db, me, to, content, kind, isGroup, freshId, now);
    case DeleteMessage(id, chatId, isGroup) =>
      Messaging.DeleteAddsNothing(db, me, id, chatId, isGroup);
    case _ =>
  }

  /** The invariant survives a change of the friendship list alone that
      keeps its pairs unique. */
  lemma FriendshipsChangeKeeps(db: Snapshot, db': Snapshot)
    requires Invariant(db) && Friendships.OnlyFriendships(db, db') && Friendships.PairsOk(db'.friendships)
    ensures Invariant(db')
  {
  }

  /** The invariant survives a change of the group list alone that keeps
      every group well formed. */
  lemma GroupsChangeKeeps(db: Snapshot, db': Snapshot)
    requires Invariant(db) && Groups.OnlyGroups(db, db')
    requires forall k :: 0 <= k < |db'.groups| ==> GroupOk(db'.groups[k])
    ensures Invariant(db')
  {
  }

  /** The invariant survives a change of the message store alone that keeps
      message ids unique. */
  lemma MessagesChangeKeeps(db: Snapshot, db': Snapshot)
    requires Invariant(db) && Messaging.OnlyMessages(db, db') && MessageIdsUnique(db'.messages)
    ensures Invariant(db')
  {
  }

  predicate IsFriendshipIntent(intent: Intent) {
    intent.FriendRequest? || intent.AcceptRequest? || intent.DeclineRequest? || intent.RemoveFriend? || intent.BlockUser?
  }

  /** The friendship handlers keep the invariant. */
  lemma FriendshipIntentKeeps(db: Snapshot, me: Id, intent: Intent, freshId: Id, now: nat, online: set<Id>)
    requires Invariant(db)
    requires IsFriendshipIntent(intent)
    ensures Invariant(Handle(db, me, intent, freshId, now, online).db)
  {
    var db' := Handle(db, me, intent, freshId, now, online).db;
    assert Friendships.PairsOk(db.friendships);
    match intent
    case FriendRequest(username) => Friendships.FriendRequestKeepsPairs(db, me, username, freshId);
    case AcceptRequest(id) => Friendships.AcceptKeepsPairs(db, me, id);
    case DeclineRequest(id) => Friendships.DeclineKeepsPairs(db, me, id);
    case RemoveFriend(id) => Friendships.RemoveFriendKeepsPairs(db, me, id);
    case BlockUser(id) => Friendships.BlockKeepsPairs(db, me, id);
    FriendshipsChangeKeeps(db, db');
  }

  /** The group and message handlers keep the invariant, given a uuid no
      stored message carries. */
  lemma OtherIntentKeeps(db: Snapshot, me: Id, intent: Intent, freshId: Id, now: nat, online: set<Id>)
    requires Invariant(db)
    requires !IsFriendshipIntent(intent)
    requires forall k :: 0 <= k < |db.messages| ==> db.messages[k].id != freshId
    ensures Invariant(Handle(db, me, intent, freshId, now, online).db)
  {
    var db' := Handle(db, me, intent, freshId, now, online).db;
    match intent
    case CreateGroup(name, ids, avatar) =>
      Groups.CreateGroupKeepsGroups(db, me, name, ids, avatar, freshId, online);
      GroupsChangeKeeps(db, db');
    case AddMembers(gid, ids) =>
      Groups.AddMembersKeepsGroups(db, me, gid, ids, online);
      GroupsChangeKeeps(db, db');
    case SendMessage(to, content, kind, isGroup) =>
      Messaging.SendKeepsIdsUnique(db, me, to, content, kind, isGroup, freshId, now);
      MessagesChangeKeeps(db, db');
    case DeleteMessage(id, chatId, isGroup) =>
      Messaging.DeleteKeepsIdsUnique(db, me, id, chatId, isGroup);
      MessagesChangeKeeps(db, db');
    case GetHistory(chatId, isGroup) =>
    case Refresh =>
  }

  /** Every handler keeps the snapshot invariant, given a uuid no stored
      message carries. */
  lemma HandleKeepsInvariant(db: Snapshot, me: Id, intent: Intent, freshId: Id, now: nat, online: set<Id>)
    requires Invariant(db)
    requires forall k :: 0 <= k < |db.messages| ==> db.messages[k].id != freshId
    ensures Invariant(Handle(db, me, intent, freshId, now, online).db)
  {
    if IsFriendshipIntent(intent) {
      FriendshipIntentKeeps(db, me, intent, freshId, now, online);
    } else {
      OtherIntentKeeps(db, me, intent, freshId, now, online);
    }
  }

  /** One client event: who sent it, what it asks, and the uuid and clock
      reading the server draws for it. */
  datatype Call = Call(me: Id, intent: Intent, freshId: Id, now: nat)

  /** The snapshot after handling `calls` in order. */
  function Run(db: Snapshot, calls: seq<Call>, online: set<Id>): (db': Snapshot)
    ensures db'.users == db.users
    decreases |calls|
  {
    if |calls| == 0 then db
    else Run(Handle(db, calls[0].me, calls[0].intent, calls[0].freshId, calls[0].now, online).db, calls[1..], online)
  }

  /** Any run of handlers keeps the snapshot invariant, as long as the uuids
      drawn are pairwise distinct and distinct from every stored message id. */
  lemma {:induction false} RunKeepsInvariant(db: Snapshot, calls: seq<Call>, online: set<Id>)
    requires Invariant(db)
    requires forall i, j :: 0 <= i < j < |calls| ==> calls[i].freshId != calls[j].freshId
    requires forall i, k :: 0 <= i < |calls| && 0 <= k < |db.messages| ==> db.messages[k].id != calls[i].freshId
    ensures Invariant(Run(db, calls, online))
    decreases |calls|
  {
    if |calls| > 0 {
      var c := calls[0];
      var db1 := Handle(db, c.me, c.intent, c.freshId, c.now, online).db;
      HandleKeepsInvariant(db, c.me, c.intent, c.freshId, c.now, online);
      HandleMessagesFromBeforeOrFresh(db, c.me, c.intent, c.freshId, c.now, online);
      var rest := calls[1..];
      forall i, k | 0 <= i < |rest| && 0 <= k < |db1.messages| ensures db1.messages[k].id != rest[i].freshId {
        assert db1.messages[k] in db1.messages;
        assert rest[i] == calls[i + 1];
        if db1.messages[k] in db.messages {
          var k0 :| 0 <= k0 < |db.messages| && db.messages[k0] == db1.messages[k];
        }
      }
      RunKeepsInvariant(db1, rest, online);
    }
  }
}
